=== FILE: README.md ===
# Student management system — a Dafny model

This project models the logic of a small student-records application. The
back end is an Express server over a MySQL/MariaDB `students` table. The
front end is a set of React pages. The model covers:

- **The five student routes of the server** (`Api`, `Server`). These are
  list with pagination, get, create with validation and null-normalisation,
  update and delete. The table is a sequence of rows in insertion order
  with an AUTO_INCREMENT counter (`Students`).
- **The activity middleware** (`Activity`). It writes one audit row for
  each request that reaches it, is not a preflight, and whose insert
  succeeds. It never blocks the request.
- **The hour ranking of the dashboard endpoint** (`Dashboard`). This is the
  stable sort by count, the most and least active hours, and the dead
  hours.
- **The list page** (`StudentList`). This covers the page and size it
  requests, the four navigation buttons and when they are disabled, the
  size selector, and the local removal of a deleted row.
- **The edit page** (`UpdateForm`). This covers loading the fetched row into
  the camelCase form, the change handler, and the snake_case payload sent
  back.
- **The add page** (`AddForm`). This covers the twelve inputs, the photo
  crop state machine, the photo choice of the submit handler, and the
  multipart body as the server reads it.
- **The JavaScript semantics these rely on** (`Js`, `Pagination`). These are
  truthiness and `||`, property lookup, `slice(0, 10)`, `String(n)`, and
  `parseInt` with no radix. For `parseInt` the model covers white-space
  skipping, sign, the `0x` prefix, the longest digit run, and `NaN`.

Each database statement either succeeds or fails. The failure is a boolean
parameter (`dbOk`). The environment supplies these as parameters or event
data:

- the clock;
- the name the upload store gives a file;
- the data URL a `FileReader` produces;
- the result of cropping;
- the outcome of the browser's `confirm` dialog.

## Model

| member | source | states |
|---|---|---|
| Js.SliceTo | my-react-app/src/Components/UpdateStudent.jsx:32 | `slice(0, n)` gives a prefix of the text of length at most n, and the whole text when that is shorter than n |
| Js.TrimStart | student-backend/index.js:57-58 | the part `parseInt` skips is all white space, and what remains is a suffix that does not start with white space |
| Js.DigitRun | student-backend/index.js:57-58 | the digit run `parseInt` reads is a prefix made only of digits, and it stops at the first non-digit |
| Js.ParseInt | student-backend/index.js:57-58 | the global `parseInt` with no radix; it has no contract of its own and is characterised by the `Js.ParseInt*` lemma rows below and by `Js.ParseIntOfNumberToString` |
| Js.ParseIntWithoutDigits | student-backend/index.js:57-58 | `parseInt` of blank text is `NaN` |
| Js.MagnitudeOfNatural | student-backend/index.js:57-58 | the decimal rendering of a natural number, followed by text that cannot continue a number, reads back as that number |
| Js.NaturalValue | student-backend/index.js:57-58 | the digits of a decimal rendering evaluate to the number rendered |
| Js.DigitRunStops | student-backend/index.js:57-58 | a digit run followed by a non-digit is read exactly up to that non-digit |
| Js.ParseIntUnsigned | student-backend/index.js:57-58 | text starting with neither white space nor a sign is read as its magnitude |
| Js.ParseIntNegative | student-backend/index.js:57-58 | a leading `-` negates the magnitude that follows |
| Js.ParseIntOfNatural | my-react-app/src/Components/StudentList.jsx:39 | `parseInt(String(n) + rest)` is n for n ≥ 0 |
| Js.ParseIntOfNegated | my-react-app/src/Components/StudentList.jsx:39 | `parseInt(String(n) + rest)` is n for n < 0 |
| Js.ParseIntOfNumberToString | my-react-app/src/Components/StudentList.jsx:39 | the page and size the list page puts in the query string are read back exactly by the server's `parseInt`, for every integer |
| Js.NumberToStringInjective | student-backend/index.js:253 | distinct integers render as distinct strings |
| Pagination.Param | student-backend/index.js:57-58 | `parseInt(q) \|\| default` takes the default when the text parses to `NaN` or 0 and keeps the parsed integer otherwise, so it is never 0 when the default is not 0 |
| Pagination.ParamDefaults | student-backend/index.js:57-58 | a missing, empty or `"0"` parameter takes the default; a rendered non-zero integer, negative ones included, is kept |
| Pagination.ParamOfUndefined | student-backend/index.js:57-58 | a missing query parameter (`parseInt(undefined)` is `NaN`) takes the default |
| Pagination.ParamOfEmpty | student-backend/index.js:57-58 | an empty parameter takes the default |
| Pagination.ParamOfZero | student-backend/index.js:57-58 | `"0"` takes the default, because `0 \|\| d` is d |
| Pagination.ParamReadsBack | student-backend/index.js:57-58 | a rendered non-zero integer is kept as it is |
| Pagination.Offset | student-backend/index.js:59 | `(page - 1) * size` is 0 on the first page and never negative for a page of at least 1; `Pagination.OffsetIsWholePages` states the rest |
| Pagination.OffsetIsWholePages | student-backend/index.js:59 | for page and size ≥ 1 the offset is non-negative, a multiple of the size, and exactly page − 1 sizes |
| Pagination.PageCount | student-backend/index.js:71 | `Math.ceil(total / size)` is 0 for an empty table, and otherwise the least count whose pages hold every row |
| Pagination.Window | student-backend/index.js:61-63 | `LIMIT size OFFSET offset` gives `min(size, max(0, total − offset))` rows, each the table row at offset + i |
| Pagination.WindowIsPage | student-backend/index.js:61-71 | the window and the page count together form page `page` of the table |
| Pagination.PagesInRangeAreNonEmpty | student-backend/index.js:59-71 | a page from 1 to the page count is non-empty, and any page past the count is empty |
| Api.WindowAcceptedExactly | student-backend/index.js:61-65 | the database accepts the `LIMIT`/`OFFSET` pair exactly when page and size are both at least 1; otherwise the request fails with 500 |
| Api.ListPage | student-backend/index.js:59-76 | after the parameters are read: 200 exactly when the query runs and page and size are positive, with `currentPage` echoing the page and the body holding the window and page count; otherwise 500 with the driver's error |
| Api.List | student-backend/index.js:56-77 | the list route, from raw query values: 200 exactly when the parsed page and size are positive and the database answers, and then the body is the requested page |
| Api.RowJson | student-backend/index.js:92 | the row object a GET returns; no contract of its own, characterised by `Api.RowJsonNameToCity`, `Api.RowJsonInterestToPhoto` and `Api.ReadsBackColumns` |
| Api.Get | student-backend/index.js:85-94 | 200 with a row of the table that has the id, exactly when one exists and the query runs; 404 otherwise, a failed query included |
| Api.Update | student-backend/index.js:98-122 | the reply depends only on whether the statement ran; every row with the id gets the thirteen columns of the body, every other row and every id is unchanged, and a missing id is still a success |
| Api.Delete | student-backend/index.js:125-135 | exactly the rows with the id are removed; a missing id is still a success; a failed statement changes nothing |
| Api.DateCell | student-backend/index.js:182-184 | a date is stored as NULL exactly when it is absent or empty, and otherwise as given |
| Api.PhotoCell | student-backend/index.js:176-179 | the photo column is `/uploads/` followed by the stored file's name exactly when a file was received, and NULL otherwise |
| Api.HasRequired | student-backend/index.js:171-173 | the `!full_name \|\| !roll_number` guard; no contract of its own, characterised by `Api.Create`, whose 400 reply happens exactly when it fails |
| Api.NewProfile | student-backend/index.js:155-187 | the thirteen values the insert binds; no contract of its own, characterised by `Api.Create` and `Api.CreateThenGet` |
| Api.Create | student-backend/index.js:154-194 | 400 exactly when full name or roll number is missing or empty; 201 exactly when both are present and the insert runs, and then one row is appended under the counter's id, which the reply reports; any other outcome leaves the table unchanged |
| Api.PutBackIsIdentity | student-backend/index.js:92-116 | sending back the JSON a GET returned rewrites the row with its own values |
| Api.ReadsBackColumns | student-backend/index.js:100-116 | a body holding every column of a row as JSON is read by the update handler as that row |
| Api.RowJsonNameToCity | student-backend/index.js:92 | a row's JSON holds each of its first six columns under the column's name |
| Api.RowJsonInterestToPhoto | student-backend/index.js:92 | a row's JSON holds each of its last seven columns under the column's name |
| Api.UpdateThenGet | student-backend/index.js:88-120 | after an update, a GET of the id returns the new columns if the id existed and 404 if not; other ids read as before |
| Api.DeleteThenGet | student-backend/index.js:88-133 | after a delete the id is not found; other ids read as before |
| Api.CreateThenGet | student-backend/index.js:186-192 | the id a create reports reads back the stored row |
| Api.TwelveRowsInPagesOfFive | student-backend/index.js:57-72 | twelve rows in pages of five give three pages, and page 3 holds exactly the last two rows |
| Api.ValidAfterHandlers | student-backend/index.js:115-192 | create, update and delete keep ids distinct and below the AUTO_INCREMENT counter |
| Students.Find | student-backend/index.js:87-92 | the first row with the id is found exactly when one exists |
| Students.Replace | student-backend/index.js:115-116 | the update statement keeps the row count and the ids, and gives exactly the rows with the id the new columns |
| Students.Remove | student-backend/index.js:128-129 | the delete statement keeps exactly the rows whose id differs |
| Students.RemoveAppend | my-react-app/src/Components/StudentList.jsx:27 | removal distributes over concatenation, so survivors keep their order |
| Students.RemoveAbsent | student-backend/index.js:128-129 | deleting an id no row has changes nothing |
| Students.Insert | student-backend/index.js:186-192 | the insert appends one row under the counter's value and advances the counter |
| Students.FindAfterReplace | student-backend/index.js:115-116 | after an update the id reads back the new columns if it existed; other ids read as before |
| Students.FindAfterRemove | student-backend/index.js:128-129 | after a delete the id is gone and other ids read as before |
| Students.FindAfterInsert | student-backend/index.js:186-192 | an inserted row reads back under its new id; other ids read as before |
| Students.FindAppend | student-backend/index.js:186-192 | looking up an id after appending a row: an earlier row wins, otherwise the new row if it has the id |
| Students.InsertKeepsValid | student-backend/index.js:186-192 | inserting keeps ids distinct and below the counter |
| Students.ReplaceKeepsValid | student-backend/index.js:115-116 | updating keeps ids distinct and below the counter |
| Students.RemoveKeepsValid | student-backend/index.js:128-129 | deleting keeps ids distinct and below the counter |
| Students.RemoveKeepsUnique | student-backend/index.js:128-129 | deleting keeps ids distinct |
| Activity.Record | student-backend/index.js:40-52 | every request except a preflight whose insert succeeds appends exactly one row, and the log only grows; the id counter advances by one exactly when a row is appended; the row holds the next id, the time, the user header or `anonymous`, the method and URL (which split back apart), and the body or `{}` |
| Activity.FirstSpace | student-backend/index.js:43 | the index returned is the first space, or the end of the text when there is none |
| Activity.SplitAction | student-backend/index.js:43 | a logged action splits back into the method and URL it was built from |
| Activity.Split | student-backend/index.js:43 | reading an action back at its first space: the method part holds no space, and the action is the method, a space and the URL, or the method alone |
| Server.Handle | student-backend/index.js:56-194 | dispatch to the route's handler: list, get and the routes outside the student table leave the table unchanged, and so does every handler whose statement fails |
| Server.Serve | student-backend/index.js:40-53 | for a request paired with a route of its method, the log grows by exactly one row when the request is audited and by none otherwise; a route no student handler serves leaves the student table alone and passes its reply through, and a preflight changes neither table |
| Server.LoggingNeverBlocks | student-backend/index.js:45-51 | whether the audit insert succeeds changes neither the reply nor the student table |
| Server.RunLogGrows | student-backend/index.js:40-52 | over any run of requests, the log only grows, by one row per audited request |
| Server.RunKeepsValid | student-backend/index.js:98-194 | over any run of requests, ids stay distinct and below the counter |
| Dashboard.InsertByCount | student-backend/index.js:252 | insertion adds exactly the one row |
| Dashboard.InsertKeepsSorted | student-backend/index.js:252 | insertion into a list sorted by descending count keeps it sorted |
| Dashboard.SortByCount | student-backend/index.js:252 | the sort orders by descending count and is a permutation of the histogram |
| Dashboard.InsertWithCount | student-backend/index.js:252 | insertion puts the new row after the rows with its count and leaves every other count's rows alone |
| Dashboard.SortIsStable | student-backend/index.js:252 | rows of equal count keep their histogram order |
| Dashboard.WithCountMembers | student-backend/index.js:252 | the rows of a given count are rows of the list that have that count |
| Dashboard.StableSortIsUnique | student-backend/index.js:252 | a sorted list with the same rows per count in the same order is unique, so any stable descending sort gives this result |
| Dashboard.WithCountOfLast | student-backend/index.js:252 | the last row's count has at least one row |
| Dashboard.WithCountBelowLast | student-backend/index.js:252 | in a sorted list, the last row has the least count of any row of the same rows per count |
| Dashboard.HourLabels | student-backend/index.js:253-255 | each hour becomes its label `${hour}:00`, in order, and a label is listed exactly when its hour is, because labels of distinct hours differ |
| Dashboard.Hours | student-backend/index.js:253-255 | the hours of the rows, in order, and an hour is listed exactly when some row carries it |
| Dashboard.Top | student-backend/index.js:253 | `slice(0, 4)` of the sorted rows: `min(4, n)` rows of the histogram, busiest first, each with a count at least that of every row left out |
| Dashboard.Bottom | student-backend/index.js:254 | `slice(-4)` of the sorted rows: `min(4, n)` rows of the histogram, busiest first, each with a count at most that of every row left out |
| Dashboard.Zeros | student-backend/index.js:255 | the filter keeps exactly the rows with count 0 and never lengthens the list |
| Dashboard.ZerosAppend | student-backend/index.js:255 | the filter distributes over concatenation, so it keeps the histogram's order |
| Dashboard.QuietFrom | student-backend/index.js:255 | the hours from h to 23 with no activity, ascending and each once |
| Dashboard.RankAsWritten | student-backend/index.js:252-255 | the ranking as the endpoint computes it: the labels of the first and last four rows of the sorted histogram, and a dead hour listed exactly when the histogram has a row with count 0 for it |
| Dashboard.DeadHoursExactly | student-backend/index.js:255 | as written, an hour's label is a dead hour exactly when some histogram row for that hour has count 0 |
| Dashboard.Rank | student-backend/index.js:252-255 | the corrected ranking: the same most and least active lists of `min(4, n)` labels from the sorted histogram, and an hour of the day listed as dead exactly when it had no activity |
| Dashboard.Label | student-backend/index.js:253 | the template `${h.hour}:00`; no contract of its own, characterised by `Dashboard.LabelReadsBack` and `Dashboard.LabelInjective` |
| Dashboard.LabelReadsBack | student-backend/index.js:253 | a label reads back as its hour |
| Dashboard.LabelInjective | student-backend/index.js:253 | distinct hours get distinct labels |
| Dashboard.IdleHours | student-backend/index.js:255 | the dead hours as evidently intended; no contract of its own, characterised by `Dashboard.IdleHoursExactly` |
| Dashboard.IdleHoursExactly | student-backend/index.js:255 | with the intended filter an hour of the day is listed exactly when it had no activity |
| Dashboard.DeadHoursOfGroupedRows | student-backend/index.js:249-255 | as written, the dead hours of any `GROUP BY` histogram are empty |
| Dashboard.NoZeros | student-backend/index.js:255 | a histogram without zero counts has nothing to filter |
| Dashboard.DeadHoursMissQuietHour | student-backend/index.js:249-255 | one request at 09:00: as written no hour is dead, though 3:00 had no activity |
| Dashboard.DeadHoursOnFullDay | student-backend/index.js:255 | on a histogram with one row per hour, zero rows included, the filter as written agrees with the intended one |
| Dashboard.QuietOnFullDay | student-backend/index.js:255 | on such a histogram an hour is idle exactly when its row counts 0 |
| Dashboard.HoursAppend | student-backend/index.js:255 | hours distribute over concatenation |
| Dashboard.ZerosFrom | student-backend/index.js:255 | on such a histogram the zero rows from hour k on are the idle hours from k on |
| FormFields.Blank | my-react-app/src/Components/AddStudentForm.jsx:11-24 | the initial and reset form has exactly the twelve inputs, all empty |
| FormFields.Change | my-react-app/src/Components/AddStudentForm.jsx:35-38 | the change handler sets the named input and leaves every other input as it was; the edit page's handler (my-react-app/src/Components/UpdateStudent.jsx:48-50) is the same spread |
| FormFields.PayloadByColumn | my-react-app/src/Components/AddStudentForm.jsx:81-92 | the payload sends each input under the column at its position, and nothing else |
| FormFields.PayloadGroupOfFour | my-react-app/src/Components/UpdateStudent.jsx:55-67 | each aligned group of four inputs sits under the columns at the same positions |
| UpdateForm.Initial | my-react-app/src/Components/UpdateStudent.jsx:9-23 | before loading, the thirteen entries are present and empty |
| UpdateForm.Load | my-react-app/src/Components/UpdateStudent.jsx:27-41 | loading fills all thirteen entries |
| UpdateForm.Submit | my-react-app/src/Components/UpdateStudent.jsx:55-70 | the PUT body holds exactly the twelve columns and the photo; each column carries the input at its position and the photo its entry, unchanged |
| UpdateForm.SubmitStoresForm | my-react-app/src/Components/UpdateStudent.jsx:55-70 | the PUT body stores each form entry in its column |
| UpdateForm.CompleteFormHasNoNulls | my-react-app/src/Components/UpdateStudent.jsx:55-69 | a form with every entry present stores no NULL |
| UpdateForm.SubmitThenGet | my-react-app/src/Components/UpdateStudent.jsx:70 | after submitting, a GET of the id returns the form's values if the id exists, and 404 otherwise |
| UpdateForm.LoadRow | my-react-app/src/Components/UpdateStudent.jsx:27-40 | loading a row's JSON gives each entry its column's text, or `''` for NULL, with the dates cut to ten characters |
| UpdateForm.RowJsonKeysNameToGender | my-react-app/src/Components/UpdateStudent.jsx:28-31 | the first four entries come from the snake_case column, because the camelCase key is absent |
| UpdateForm.RowJsonKeysDobToDepartment | my-react-app/src/Components/UpdateStudent.jsx:32-35 | dob (falling back past `date_of_birth`), city, interest and department come from their columns |
| UpdateForm.RowJsonKeysDegreeToPhoto | my-react-app/src/Components/UpdateStudent.jsx:36-40 | degree, subject, dates and photo come from their columns |
| UpdateForm.UnchangedEdit | my-react-app/src/Components/UpdateStudent.jsx:27-70 | opening the edit page and submitting unchanged sends back, for each of the thirteen columns, the column's own text, NULL becoming the empty string and the three dates cut to ten characters |
| UpdateForm.RowFormLookupsNameToCity | my-react-app/src/Components/UpdateStudent.jsx:28-40 | the loaded entries for name, roll number, email, gender, birth date and city |
| UpdateForm.RowFormLookupsInterestToPhoto | my-react-app/src/Components/UpdateStudent.jsx:28-40 | the loaded entries for interest, department, degree title, subject, the two study dates and the photo |
| UpdateForm.UnchangedEditKeepsRow | my-react-app/src/Components/UpdateStudent.jsx:27-70 | for a row without NULLs whose dates are at most ten characters, an unchanged edit rewrites the row with its own values |
| UpdateForm.RowFormIsText | my-react-app/src/Components/UpdateStudent.jsx:27-40 | such a row's loaded form stores back as the row |
| UpdateForm.RowFormTextNameToCity | my-react-app/src/Components/UpdateStudent.jsx:28-33 | the first six entries store back as their columns |
| UpdateForm.RowFormTextInterestToPhoto | my-react-app/src/Components/UpdateStudent.jsx:34-40 | the last seven entries store back as their columns |
| StudentList.Disabled | my-react-app/src/Components/StudentList.jsx:106-110 | First and Previous are disabled on page 1, Next and Last on the last page; no contract of its own, characterised by `StudentList.NavigationStaysInRange` and `StudentList.NextOnEmptyTable` |
| StudentList.Target | my-react-app/src/Components/StudentList.jsx:106-110 | the page each button asks for; no contract of its own, characterised by `StudentList.NavigationStaysInRange` |
| StudentList.Press | my-react-app/src/Components/StudentList.jsx:106-110 | a button changes only the page, and a disabled one changes nothing |
| StudentList.NavigationStaysInRange | my-react-app/src/Components/StudentList.jsx:106-110 | within range every button keeps the page in range, and a button is disabled exactly when it would not move |
| StudentList.NextOnEmptyTable | my-react-app/src/Components/StudentList.jsx:103-110 | with 0 pages Next and Last stay enabled and ask for page 0, which the server reads as page 1 |
| StudentList.ChooseSize | my-react-app/src/Components/StudentList.jsx:60-64 | choosing 5, 10 or 20 sets that size and keeps the page |
| StudentList.Refresh | my-react-app/src/Components/StudentList.jsx:37-48 | the effect keeps the page and size, and a failed request changes nothing; `StudentList.RefreshShowsPage` states what a success shows |
| StudentList.RefreshShowsPage | my-react-app/src/Components/StudentList.jsx:37-48 | for a positive page and size the view shows exactly that page of the table and a page count that covers it |
| StudentList.ListReadsBack | my-react-app/src/Components/StudentList.jsx:39 | the query string the view builds is read back as the same page and size |
| StudentList.SizeChangeCanLeavePageOutOfRange | my-react-app/src/Components/StudentList.jsx:60-103 | on page 3 of twelve rows, switching to 20 a page shows "page 3 of 1" and an empty table |
| StudentList.HandleDelete | my-react-app/src/Components/StudentList.jsx:23-30 | after a confirmed and successful delete the rows on screen are exactly the earlier ones without that id; otherwise nothing changes |
| StudentList.DeleteKeepsViewConsistent | my-react-app/src/Components/StudentList.jsx:23-30 | when every row shown is in the table, it still is after a delete through the server |
| AddForm.Initial | my-react-app/src/Components/AddStudentForm.jsx:11-31 | the initial state has all twelve inputs |
| AddForm.Cleared | my-react-app/src/Components/AddStudentForm.jsx:113-131 | cancel as written leaves exactly the twelve inputs, each empty, and clears image, crop and done flag, but the file input keeps its selection |
| AddForm.PhotoOf | my-react-app/src/Components/AddStudentForm.jsx:94-101 | the cropped image is preferred; without one the file input's first file is sent; no photo is sent exactly when there is neither |
| AddForm.Parts | my-react-app/src/Components/AddStudentForm.jsx:80-92 | the text parts are exactly the twelve column names, each carrying its input's text, or `"undefined"` for an input missing from the state |
| AddForm.StepAsWritten | my-react-app/src/Components/AddStudentForm.jsx:35-131 | the component's handlers with cancel as written; no contract of its own, characterised by `AddForm.StepKeepsInv` and `AddForm.StalePhotoResent` |
| AddForm.Step | my-react-app/src/Components/AddStudentForm.jsx:35-131 | the handlers with cancel also emptying the file input; no contract of its own, characterised by `AddForm.StepKeepsInv`, `AddForm.StepKeepsAttached` and `AddForm.RunKeepsInvariants` |
| AddForm.StepKeepsInv | my-react-app/src/Components/AddStudentForm.jsx:40-131 | every event, under both resets, keeps "done implies a crop, and a crop implies an image" and all twelve inputs |
| AddForm.ShownMatchesButtons | my-react-app/src/Components/AddStudentForm.jsx:148-197 | the cropper shows exactly with the Done button, the preview exactly with the Edit button, and the preview exactly when done |
| AddForm.PickResetsCrop | my-react-app/src/Components/AddStudentForm.jsx:40-50 | picking a file while the camera shows loads it into the cropper, drops any crop and clears the done flag |
| AddForm.OnlyCropSetsDone | my-react-app/src/Components/AddStudentForm.jsx:56-64 | the done flag is set only by a successful crop while the cropper shows, and it stores the crop |
| AddForm.StepKeepsAttached | my-react-app/src/Components/AddStudentForm.jsx:40-131 | with the intended reset, the file input holds a selection exactly while an image is loaded |
| AddForm.PhotoOnlyWhenShown | my-react-app/src/Components/AddStudentForm.jsx:94-164 | under both invariants, a photo is attached exactly when an image is loaded on screen |
| AddForm.RunKeepsInvariants | my-react-app/src/Components/AddStudentForm.jsx:35-131 | with the intended reset, after any events from a valid state, a photo is attached exactly when one is on screen |
| AddForm.StalePhotoResent | my-react-app/src/Components/AddStudentForm.jsx:94-131 | as written, after a photo is picked, cropped and submitted, the cleared form shows the camera yet attaches the old raw file |
| AddForm.NoStalePhoto | my-react-app/src/Components/AddStudentForm.jsx:94-131 | with the intended reset, the same events attach no photo next time |
| AddForm.SubmitCreates | my-react-app/src/Components/AddStudentForm.jsx:78-111 | a submission creates a row exactly when name and roll number are non-empty and the insert runs, and the row has a photo exactly when one was attached |
| AddForm.PartsRequired | my-react-app/src/Components/AddStudentForm.jsx:81-82 | the two required parts carry the name and roll number inputs as text |
| AddForm.SentOfComplete | my-react-app/src/Components/AddStudentForm.jsx:81-92 | in a complete form each part is the input's own text |

## Left out

- JSON numbers, booleans, arrays and objects in request bodies and query strings. Values are `undefined`, `null` or strings, as the forms and query strings send them.
- Double precision in `parseInt`. Integers are unbounded, so digit runs too long for a double are read exactly.
- The SQL aggregate battery of the dashboard endpoint (student-backend/index.js:197-250, 258-274). Its meaning lies in the database: dates, `GROUP BY` and ordering. The hourly histogram is an input to `Dashboard.Rank`.
- Multer disk storage and its clock-plus-random file name. The stored name is a parameter.
- The coercion of the `:id` route parameter from text to a number by the database. Ids are integers here.
- Conversion of DATE columns by the driver and the time zone. A stored date is the text that was sent. With the driver's default conversion a date reaches the JSON as a 24-character UTC timestamp, so `UpdateForm.UnchangedEditKeepsRow` and `Api.PutBackIsIdentity` do not cover real DATE values: `slice(0, 10)` keeps only the UTC day, which on a server east of UTC is the day before the stored date.
- The JSON body parser (student-backend/index.js:9). A body it rejects gets a 400 or 413 before the activity middleware runs, so no audit row is written. The model can state such a request only as a `Server.NoStudentRoute` step with that reply and a failed insert; it does not derive the rejection from the body.
- `JSON.stringify` of the request body in the activity log. The serialised text is a parameter.
- Express routing beyond the method check in `Server.Matches`, the `cors` headers, static file serving, the database connection and table creation. A request that no student handler serves is `Server.NoStudentRoute`, whose reply is an input.
- The order of the asynchronous audit insert relative to the handler's own statements, and concurrent requests. Each request is one atomic step.
- The `details` field of the create route's 500 reply (student-backend/index.js:190). It is the driver's message text, which the model does not have.
- `FileReader`, `fetch`, `File`, `alert`, `window.confirm` and navigation in the pages. Their results arrive as event parameters.
- Api.Get, Api.Update, Api.Delete: the id has the same meaning for every request. The `WHERE id = ?` comparison of a text id with an integer column is not modelled.
- AddForm.Parts: the multipart field order. The server reads parts by name, so the parts are a map.
- AddForm: picking the same file again fires no change event in browsers. The model treats every pick as a change.
- `formatDate`, my-react-app/src/utils/cropImage.jsx, Dashboard.jsx, ViewStudent.jsx and App.jsx. These cover rendering, canvas cropping, timers and the route table.
- The zoom slider and crop geometry of the add page. The cropped result arrives with the `CropDone` event.

## Findings

| source | as written | input that shows it | evidently intended | confidence | as-written member | corrected member |
|---|---|---|---|---|---|---|
| student-backend/index.js:249-255 | `deadHours` keeps the histogram rows whose count is 0. The rows come from `GROUP BY hour`, so every row counts at least 1 and the list is always empty. | One request at 09:00 in thirty days gives the histogram `[{hour: 9, count: 1}]`. Dead hours are `[]`, though 3:00 had no activity. | The hours of the day, 0 to 23, with no activity. | medium; not executed | Dashboard.RankAsWritten, Dashboard.DeadHoursOfGroupedRows, Dashboard.DeadHoursMissQuietHour | Dashboard.IdleHours, Dashboard.IdleHoursExactly, Dashboard.Rank |
| my-react-app/src/Components/AddStudentForm.jsx:99-100,107,113-131 | After a successful submit, `handleCancel` clears image, crop and inputs but not the hidden file input. The next submit without a crop attaches `fileInputRef.current.files[0]`. | Pick `a.jpg`, crop, and create. The form now shows the camera icon. Fill in the next student and create: `a.jpg` is uploaded as that student's photo. | The reset also empties the file input, so a photo is sent only when one is on screen. | high; not executed | AddForm.StepAsWritten, AddForm.Cleared, AddForm.StalePhotoResent | AddForm.Step, AddForm.StepKeepsAttached, AddForm.RunKeepsInvariants, AddForm.NoStalePhoto |

=== FILE: activity.dfy ===
/**
 * The `dbLogActivity` middleware (student-backend/index.js): every request
 * except a CORS preflight writes one audit row holding who asked, what was
 * asked and the request body, and the request proceeds to its handler
 * whatever became of that insert.
 */
module Activity {
  import opened Js
  import opened Wrappers

  /** One row of the `activities` table. */
  datatype Entry = Entry(id: nat, userId: string, action: string, timestamp: int, details: string)

  /** The `activities` table and its AUTO_INCREMENT counter. */
  datatype Log = Log(entries: seq<Entry>, nextId: nat)

  /** What the middleware reads from an incoming request: the method, the
      original URL, the `x-user-id` header and the parsed body, already
      serialised by `JSON.stringify` (`None` when there is no body). */
  datatype Request = Request(verb: string, url: string, userHeader: Value, body: Option<string>)

  const Anonymous := "anonymous"
  const Preflight := "OPTIONS"

  /** `req.headers['x-user-id'] || 'anonymous'` */
  function UserId(header: Value): string {
    if Truthy(header) then header.s else Anonymous
  }

  /** `req.verb + ' ' + req.originalUrl` */
  function Action(req: Request): string {
    req.verb + " " + req.url
  }

  /** `JSON.stringify(req.body || {})` */
  function Details(req: Request): string {
    req.body.GetOr("{}")
  }

  /** The middleware's effect on the log. `inserted` is the outcome of the
      fire-and-forget insert; `now` is the timestamp the database assigns. */
  function Record(log: Log, req: Request, now: int, inserted: bool): (r: Log)
    ensures log.entries <= r.entries
    ensures |r.entries| == |log.entries| + (if req.verb != Preflight && inserted then 1 else 0)
    ensures r.nextId == log.nextId + (if req.verb != Preflight && inserted then 1 else 0)
    ensures |log.entries| < |r.entries| ==>
      var e := r.entries[|log.entries|];
      && e.id == log.nextId
      && e.timestamp == now
      && (Truthy(req.userHeader) ==> e.userId == req.userHeader.s)
      && (!Truthy(req.userHeader) ==> e.userId == Anonymous)
      && (NoSpace(req.verb) ==> Split(e.action) == (req.verb, req.url))
      && (req.body.None? ==> e.details == "{}")
      && (req.body.Some? ==> e.details == req.body.value)
  {
    if req.verb != Preflight && inserted then
      var e := Entry(log.nextId, UserId(req.userHeader), Action(req), now, Details(req));
      assert NoSpace(req.verb) ==> Split(e.action) == (req.verb, req.url) by {
        if NoSpace(req.verb) {
          SplitAction(req.verb, req.url);
        }
      }
      Log(log.entries + [e], log.nextId + 1)
    else
      log
  }

  predicate NoSpace(s: string) {
    forall i :: 0 <= i < |s| ==> s[i] != ' '
  }

  /** Index of the first space in `s`, or `|s|` when there is none. */
  function FirstSpace(s: string): (k: nat)
    ensures k <= |s|
    ensures k < |s| ==> s[k] == ' '
    ensures forall i :: 0 <= i < k ==> s[i] != ' '
  {
    if s == [] || s[0] == ' ' then 0 else 1 + FirstSpace(s[1..])
  }

  /** Reading an action back into method and URL at its first space. */
  function Split(action: string): (r: (string, string))
    ensures NoSpace(r.0)
    ensures action == r.0 + " " + r.1 || (action == r.0 && r.1 == "")
  {
    var k := FirstSpace(action);
    if k < |action| then
      assert action == action[..k] + " " + action[k + 1..];
      (action[..k], action[k + 1..])
    else (action, "")
  }

  /** An action splits back into the method and URL it was built from,
      since HTTP method names hold no spaces. */
  lemma SplitAction(verb: string, url: string)
    requires NoSpace(verb)
    ensures Split(verb + " " + url) == (verb, url)
  {
    var a := verb + " " + url;
    var k := FirstSpace(a);
    assert a[|verb|] == ' ';
    assert k == |verb|;
    assert a[..k] == verb;
    assert a[k + 1..] == url;
  }
}

=== FILE: add_form.dfy ===
/**
 * The add page (my-react-app/src/Components/AddStudentForm.jsx): the
 * twelve inputs, the photo picked through a hidden file input and cropped
 * in place, and the multipart POST that sends the inputs under their
 * column names together with the cropped image, or else the raw file.
 * Image decoding, cropping geometry and the browser's file dialog are
 * outside the model: their results arrive as event parameters.
 */
module AddForm {
  import opened Js
  import opened Wrappers
  import opened Students
  import opened Api
  import opened FormFields

  /** The photo part of the multipart body. */
  datatype PhotoPart = Cropped(dataUrl: string) | Raw(file: string)

  /** The component's state, together with the selection the hidden file
      input holds (`chosen`, the picked files' names), which the submit
      handler reads through its ref. */
  datatype FormState = FormState(
    fields: Form, imageSrc: Option<string>, croppedImage: Option<string>, isDone: bool,
    chosen: seq<string>)

  function Initial(): (st: FormState)
    ensures Complete(st.fields)
  {
    FormState(Blank(), None, None, false, [])
  }

  /** What the photo circle shows. */
  datatype Circle = Cropper | Preview | Camera

  function Shown(st: FormState): Circle {
    if st.imageSrc.Some? && !st.isDone then Cropper
    else if st.croppedImage.Some? then Preview
    else Camera
  }

  /** The Done button is rendered while cropping. */
  predicate DoneButton(st: FormState) {
    st.imageSrc.Some? && !st.isDone
  }

  /** The Edit button is rendered next to a finished crop. */
  predicate EditButton(st: FormState) {
    st.croppedImage.Some? && st.isDone
  }

  /** What the user and the browser can do. `ChooseFiles` carries the
      picked files and the data URL the reader produces for the first one;
      `CropDone` carries the cropped image, or `None` when cropping threw;
      `Submitted` carries whether the POST succeeded. */
  datatype Event =
    | Change(name: string, value: string)
    | ChooseFiles(files: seq<string>, dataUrl: string)
    | CropDone(result: Option<string>)
    | EditCrop
    | Cancel
    | Submitted(ok: bool)

  /** One event, with `reset` the state the cancel handler leaves. The file
      dialog opens only from the circle while no image is loaded, and each
      button acts only while it is rendered. */
  function Next(st: FormState, e: Event, reset: FormState): FormState {
    match e
    case Change(name, value) => st.(fields := FormFields.Change(st.fields, name, value))
    case ChooseFiles(files, dataUrl) =>
      if st.imageSrc.Some? then st
      else if |files| > 0 then
        st.(chosen := files, imageSrc := Some(dataUrl), croppedImage := None, isDone := false)
      else st.(chosen := files)
    case CropDone(result) =>
      if DoneButton(st) && result.Some? then st.(croppedImage := result, isDone := true) else st
    case EditCrop => if EditButton(st) then st.(isDone := false) else st
    case Cancel => reset
    case Submitted(ok) => if ok then reset else st
  }

  /** The cancel handler as written: inputs, image and crop are cleared, but
      the file input keeps its selection. */
  function Cleared(st: FormState): (r: FormState)
    ensures Complete(r.fields) && r.imageSrc.None? && r.croppedImage.None? && !r.isDone
    ensures forall k :: k in r.fields <==> k in Keys
    ensures forall k :: k in r.fields ==> r.fields[k] == ""
    ensures r.chosen == st.chosen
  {
    FormState(Blank(), None, None, false, st.chosen)
  }

  function StepAsWritten(st: FormState, e: Event): FormState {
    Next(st, e, Cleared(st))
  }

  /** The cancel handler as evidently intended: back to the initial state,
      the file input's selection included. */
  function Step(st: FormState, e: Event): FormState {
    Next(st, e, Initial())
  }

  /** The photo the submit handler attaches: the cropped image if there is
      one, else the file input's first file, else none. */
  function PhotoOf(st: FormState): (r: Option<PhotoPart>)
    ensures st.croppedImage.Some? ==> r == Some(Cropped(st.croppedImage.value))
    ensures r.None? <==> st.croppedImage.None? && |st.chosen| == 0
    ensures st.croppedImage.None? && |st.chosen| > 0 ==> r == Some(Raw(st.chosen[0]))
  {
    if st.croppedImage.Some? then Some(Cropped(st.croppedImage.value))
    else if |st.chosen| > 0 then Some(Raw(st.chosen[0]))
    else None
  }

  /** The text parts as the server receives them: each input under its
      column, converted to a string by `FormData.append`. */
  function Parts(f: Form): (m: map<string, Value>)
    ensures forall k :: k in m <==> k in Payload(f)
    ensures forall i :: 0 <= i < |Columns| ==> Columns[i] in m && m[Columns[i]] == Str(ToString(Lookup(f, Keys[i])))
    ensures Complete(f) ==> forall i :: 0 <= i < |Columns| ==> Columns[i] in m && Keys[i] in f && m[Columns[i]] == Str(f[Keys[i]])
  {
    PayloadByColumn(f);
    map k | k in Payload(f) :: Str(ToString(Payload(f)[k]))
  }

  /* ----- The crop state machine ----- */

  /** A finished crop has an image, and a crop has a source image. */
  predicate Inv(st: FormState) {
    && (st.isDone ==> st.croppedImage.Some?)
    && (st.croppedImage.Some? ==> st.imageSrc.Some?)
  }

  /** The file input holds a selection exactly while an image is loaded. */
  predicate Attached(st: FormState) {
    |st.chosen| > 0 <==> st.imageSrc.Some?
  }

  /** Both handlers keep the crop invariant and the inputs' keys. */
  lemma StepKeepsInv(st: FormState, e: Event)
    requires Inv(st) && Complete(st.fields)
    ensures Inv(Step(st, e)) && Complete(Step(st, e).fields)
    ensures Inv(StepAsWritten(st, e)) && Complete(StepAsWritten(st, e).fields)
  {
  }

  /** Under the invariant the circle shows the preview exactly when the
      crop is done, and each button is rendered exactly with its view. */
  lemma ShownMatchesButtons(st: FormState)
    requires Inv(st)
    ensures Shown(st) == Preview <==> st.isDone
    ensures DoneButton(st) <==> Shown(st) == Cropper
    ensures EditButton(st) <==> Shown(st) == Preview
  {
  }

  /** Picking a file while the camera icon is shown loads it into the
      cropper and discards any earlier crop; picking nothing loads nothing. */
  lemma PickResetsCrop(st: FormState, files: seq<string>, dataUrl: string)
    requires st.imageSrc.None?
    ensures var r := Step(st, ChooseFiles(files, dataUrl));
      && (|files| > 0 <==> r.imageSrc == Some(dataUrl))
      && (|files| > 0 ==> r.croppedImage.None? && !r.isDone && Shown(r) == Cropper)
      && r.fields == st.fields
  {
  }

  /** Only a successful crop sets `isDone`. */
  lemma OnlyCropSetsDone(st: FormState, e: Event)
    requires !st.isDone && Step(st, e).isDone
    ensures e.CropDone? && e.result.Some? && DoneButton(st)
    ensures Step(st, e).croppedImage == e.result
  {
  }

  /** With the intended reset, the file input is emptied together with the
      image. */
  lemma StepKeepsAttached(st: FormState, e: Event)
    requires Attached(st)
    ensures Attached(Step(st, e))
  {
  }

  /** So the submit handler attaches a photo exactly when an image is
      loaded on screen. */
  lemma PhotoOnlyWhenShown(st: FormState)
    requires Inv(st) && Attached(st)
    ensures PhotoOf(st).Some? <==> st.imageSrc.Some?
  {
  }

  function Run(st: FormState, events: seq<Event>): FormState
    decreases |events|
  {
    if events == [] then st else Run(Step(st, events[0]), events[1..])
  }

  /** From the initial state, after any events, the invariants hold, so a
      photo is attached only when one is on screen. */
  lemma {:induction false} RunKeepsInvariants(st: FormState, events: seq<Event>)
    requires Inv(st) && Attached(st) && Complete(st.fields)
    ensures var r := Run(st, events);
      Inv(r) && Attached(r) && Complete(r.fields) && (PhotoOf(r).Some? <==> r.imageSrc.Some?)
    decreases |events|
  {
    if events == [] {
      PhotoOnlyWhenShown(st);
    } else {
      StepKeepsInv(st, events[0]);
      StepKeepsAttached(st, events[0]);
      RunKeepsInvariants(Step(st, events[0]), events[1..]);
    }
  }

  /** As written: pick a photo, crop it, add the student. The form is
      cleared and shows the camera icon, yet the next submission attaches
      the first student's raw file. */
  lemma StalePhotoResent()
    ensures var s1 := StepAsWritten(Initial(), ChooseFiles(["a.jpg"], "data:a"));
      var s2 := StepAsWritten(s1, CropDone(Some("blob:a")));
      var s3 := StepAsWritten(s2, Submitted(true));
      && PhotoOf(s2) == Some(Cropped("blob:a"))
      && Shown(s3) == Camera && s3.imageSrc.None?
      && PhotoOf(s3) == Some(Raw("a.jpg"))
      && !Attached(s3)
  {
  }

  /** With the intended reset the same sequence sends no photo next time. */
  lemma NoStalePhoto()
    ensures var s1 := Step(Initial(), ChooseFiles(["a.jpg"], "data:a"));
      var s2 := Step(s1, CropDone(Some("blob:a")));
      var s3 := Step(s2, Submitted(true));
      && PhotoOf(s2) == Some(Cropped("blob:a"))
      && Shown(s3) == Camera
      && PhotoOf(s3).None?
  {
  }

  /* ----- Submitting to the server ----- */

  /** What `FormData.append` sends for input `k`: its text (`"undefined"`
      for a name the form lacks). */
  function Sent(f: Form, k: string): string {
    ToString(Lookup(f, k))
  }

  /** The POST the submit handler sends, through the create handler: the
      text parts, and the upload store's name for the photo when one is
      attached. A row is created exactly when full name and roll number
      are non-empty and the insert succeeds; its photo column is set
      exactly when a photo was attached. */
  lemma SubmitCreates(st: FormState, store: Store, stored: string, dbOk: bool)
    ensures var upload := if PhotoOf(st).Some? then Some(stored) else None;
      var r := Create(store, Parts(st.fields), upload, dbOk);
      && (r.response.status == 201 <==> Sent(st.fields, "fullName") != "" && Sent(st.fields, "rollNumber") != "" && dbOk)
      && (r.response.status == 201 ==>
            (r.store.rows[|store.rows|].profile.photo.Text? <==> PhotoOf(st).Some?))
  {
    var f := st.fields;
    PartsRequired(f);
    var upload := if PhotoOf(st).Some? then Some(stored) else None;
    var r := Create(store, Parts(f), upload, dbOk);
    if r.response.status == 201 {
      assert r.store.rows[|store.rows|].profile == NewProfile(Parts(f), upload);
    }
  }

  /** The two required parts carry the full name and roll number inputs. */
  lemma PartsRequired(f: Form)
    ensures Prop(Parts(f), "full_name") == Str(Sent(f, "fullName"))
    ensures Prop(Parts(f), "roll_number") == Str(Sent(f, "rollNumber"))
  {
    assert "full_name" in Payload(f) && "roll_number" in Payload(f);
  }

  /** In a complete form those are the inputs' own texts. */
  lemma SentOfComplete(f: Form, k: string)
    requires Complete(f) && k in Keys
    ensures Sent(f, k) == f[k]
  {
  }
}

=== FILE: api.dfy ===
/**
 * The five student routes of student-backend/index.js as functions from
 * the table (and the request's parameters) to a reply and the table
 * afterwards. `dbOk` is whether the database executed the handler's
 * statements; every database error is a `false` here.
 */
module Api {
  import opened Js
  import opened Wrappers
  import opened Students
  import opened Pagination

  datatype Body =
    | Page(students: seq<Student>, totalPages: nat, currentPage: int)
    | Row(student: Student)
    | Message(message: string)
    | Created(message: string, studentId: nat)
    | Failure(error: string)
      /** the driver's own error object, passed through as `{ error: err }` */
    | DriverError

  datatype Response = Response(status: int, body: Body)

  /** A handler's result: the table afterwards and the reply. */
  datatype Outcome = Outcome(store: Store, response: Response)

  const NotFound := Response(404, Failure("Student not found"))
  const MissingFields := Response(400, Failure("Full name and roll number are required."))
  const Updated := Response(200, Message("Student updated successfully"))
  const UpdateFailed := Response(500, Failure("Failed to update student"))
  const Deleted := Response(200, Message("Student deleted successfully"))
  const DeleteFailed := Response(500, Failure("Failed to delete student"))
  const AddFailed := Response(500, Failure("Failed to add student"))
  const AddedMessage := "Student added successfully"

  /* ----- GET /api/students?page=&size= ----- */

  /** The database refuses a negative `LIMIT` or `OFFSET` (it is a syntax
      error in MySQL and MariaDB), so such a request fails like any other
      query. */
  predicate WindowAccepted(size: int, offset: int) {
    0 <= size && 0 <= offset
  }

  lemma WindowAcceptedExactly(page: int, size: int)
    requires page != 0 && size != 0
    ensures WindowAccepted(size, Offset(page, size)) <==> 1 <= page && 1 <= size
  {
    if 1 <= size {
      MulBounds(page - 1, size);
    }
  }

  /** The handler once both parameters have been read. */
  function ListPage(rows: seq<Student>, page: int, size: int, dbOk: bool): (r: Response)
    requires page != 0 && size != 0
    ensures r.status == 200 <==> dbOk && 1 <= page && 1 <= size
    ensures r.status != 200 ==> r == Response(500, DriverError)
    ensures r.status == 200 ==>
      && r.body.Page?
      && r.body.currentPage == page
      && IsPage(rows, page, size, r.body.students, r.body.totalPages)
  {
    var offset := Offset(page, size);
    WindowAcceptedExactly(page, size);
    if !dbOk || !WindowAccepted(size, offset) then Response(500, DriverError)
    else
      WindowIsPage(rows, page, size);
      var window := Window(rows, offset, size);
      var count := PageCount(|rows|, size);
      Response(200, Page(window, count, page))
  }

  /** `page` and `size` default to 1 and 5; the rows are the window at
      `(page - 1) * size`, and the page count is `ceil(total / size)`. */
  function List(store: Store, pageQuery: Value, sizeQuery: Value, dbOk: bool): (r: Response)
    ensures r.status == 200 <==>
      dbOk && 1 <= Param(pageQuery, DefaultPage) && 1 <= Param(sizeQuery, DefaultSize)
    ensures r.status != 200 ==> r == Response(500, DriverError)
    ensures r.status == 200 ==>
      var page := Param(pageQuery, DefaultPage);
      && r.body.Page?
      && r.body.currentPage == page
      && IsPage(store.rows, page, Param(sizeQuery, DefaultSize), r.body.students, r.body.totalPages)
  {
    var page := Param(pageQuery, DefaultPage);
    var size := Param(sizeQuery, DefaultSize);
    ListPage(store.rows, page, size, dbOk)
  }

  /* ----- GET /api/students/:id ----- */

  /** A failed query is reported as "not found" too. */
  function Get(store: Store, id: int, dbOk: bool): (r: Response)
    ensures r.status == 200 <==> dbOk && HasId(store.rows, id)
    ensures r.status != 200 ==> r == NotFound
    ensures r.status == 200 ==> r.body.Row? && r.body.student in store.rows && r.body.student.id == id
  {
    if !dbOk then NotFound
    else match Find(store.rows, id)
      case None => NotFound
      case Some(s) => Response(200, Row(s))
  }

  /** The JSON object a GET of `s` sends, keyed by column name (the numeric
      `id` key is left out: no reader of this object uses it). */
  function RowJson(s: Student): map<string, Value> {
    var p := s.profile;
    map[
      "full_name" := ToValue(p.fullName), "roll_number" := ToValue(p.rollNumber),
      "email" := ToValue(p.email), "gender" := ToValue(p.gender), "dob" := ToValue(p.dob),
      "city" := ToValue(p.city), "interest" := ToValue(p.interest),
      "department" := ToValue(p.department), "degree_title" := ToValue(p.degreeTitle),
      "subject" := ToValue(p.subject), "start_date" := ToValue(p.startDate),
      "end_date" := ToValue(p.endDate), "photo" := ToValue(p.photo)]
  }

  /* ----- PUT /api/students/:id ----- */

  /** The thirteen columns a PUT body sets, read by their snake_case keys;
      a missing key binds NULL. */
  function ProfileOf(body: map<string, Value>): Profile {
    Profile(
      ToCell(Prop(body, "full_name")), ToCell(Prop(body, "roll_number")),
      ToCell(Prop(body, "email")), ToCell(Prop(body, "gender")), ToCell(Prop(body, "dob")),
      ToCell(Prop(body, "city")), ToCell(Prop(body, "interest")),
      ToCell(Prop(body, "department")), ToCell(Prop(body, "degree_title")),
      ToCell(Prop(body, "subject")), ToCell(Prop(body, "start_date")),
      ToCell(Prop(body, "end_date")), ToCell(Prop(body, "photo")))
  }

  /** No existence check: an update of an id no row has still succeeds. */
  function Update(store: Store, id: int, body: map<string, Value>, dbOk: bool): (r: Outcome)
    ensures r.response == (if dbOk then Updated else UpdateFailed)
    ensures r.store.nextId == store.nextId
    ensures |r.store.rows| == |store.rows|
    ensures forall i :: 0 <= i < |store.rows| ==> r.store.rows[i].id == store.rows[i].id
    ensures forall i :: 0 <= i < |store.rows| && (store.rows[i].id != id || !dbOk) ==>
      r.store.rows[i] == store.rows[i]
    ensures forall i :: 0 <= i < |store.rows| && store.rows[i].id == id && dbOk ==>
      r.store.rows[i].profile == ProfileOf(body)
  {
    if dbOk then Outcome(Store(Replace(store.rows, id, ProfileOf(body)), store.nextId), Updated)
    else Outcome(store, UpdateFailed)
  }

  /* ----- DELETE /api/students/:id ----- */

  /** No existence check: deleting an id no row has still succeeds. */
  function Delete(store: Store, id: int, dbOk: bool): (r: Outcome)
    ensures r.response == (if dbOk then Deleted else DeleteFailed)
    ensures r.store.nextId == store.nextId
    ensures dbOk ==> forall s :: s in r.store.rows <==> s in store.rows && s.id != id
    ensures !dbOk ==> r.store == store
  {
    if dbOk then Outcome(Store(Remove(store.rows, id), store.nextId), Deleted)
    else Outcome(store, DeleteFailed)
  }

  /* ----- POST /api/students ----- */

  /** `v && v !== '' ? v : null` */
  function DateCell(v: Value): (c: Cell)
    ensures c.SqlNull? <==> !Truthy(v)
    ensures c.Text? ==> Str(c.s) == v
  {
    if Truthy(v) then Text(v.s) else SqlNull
  }

  /** The stored photo path: `'/uploads/' + req.file.filename` when a file
      was received, and NULL otherwise. `upload` is the name the upload
      store gave the file. */
  function PhotoCell(upload: Option<string>): (c: Cell)
    ensures c.Text? <==> upload.Some?
    ensures c.Text? ==> 9 <= |c.s| && c.s[..9] == "/uploads/" && c.s[9..] == upload.value
  {
    match upload
    case Some(name) => Text("/uploads/" + name)
    case None => SqlNull
  }

  /** The row a create stores: the three dates normalised to NULL when
      empty or absent, the photo taken from the upload (a `photo` field in
      the body is ignored), every other column as given. */
  function NewProfile(fields: map<string, Value>, upload: Option<string>): Profile {
    Profile(
      ToCell(Prop(fields, "full_name")), ToCell(Prop(fields, "roll_number")),
      ToCell(Prop(fields, "email")), ToCell(Prop(fields, "gender")), DateCell(Prop(fields, "dob")),
      ToCell(Prop(fields, "city")), ToCell(Prop(fields, "interest")),
      ToCell(Prop(fields, "department")), ToCell(Prop(fields, "degree_title")),
      ToCell(Prop(fields, "subject")), DateCell(Prop(fields, "start_date")),
      DateCell(Prop(fields, "end_date")), PhotoCell(upload))
  }

  predicate HasRequired(fields: map<string, Value>) {
    Truthy(Prop(fields, "full_name")) && Truthy(Prop(fields, "roll_number"))
  }

  function Create(store: Store, fields: map<string, Value>, upload: Option<string>, dbOk: bool): (r: Outcome)
    ensures r.response.status == 400 <==> !HasRequired(fields)
    ensures r.response.status == 201 <==> HasRequired(fields) && dbOk
    ensures r.response.status != 201 ==> r.store == store
    ensures r.response.status == 201 ==>
      && r.response.body == Created(AddedMessage, store.nextId)
      && r.store.nextId == store.nextId + 1
      && r.store.rows == store.rows + [Student(store.nextId, NewProfile(fields, upload))]
  {
    if !HasRequired(fields) then Outcome(store, MissingFields)
    else if !dbOk then Outcome(store, AddFailed)
    else Outcome(Insert(store, NewProfile(fields, upload)), Response(201, Created(AddedMessage, store.nextId)))
  }

  /* ----- Properties across routes ----- */

  /** Sending back exactly what a GET returned rewrites the row with its
      own values. */
  lemma PutBackIsIdentity(s: Student)
    ensures ProfileOf(RowJson(s)) == s.profile
  {
    RowJsonNameToCity(s);
    RowJsonInterestToPhoto(s);
    ReadsBackColumns(RowJson(s), s.profile);
  }

  /** A body holding every column of `p` as JSON reads back as `p`. */
  lemma ReadsBackColumns(body: map<string, Value>, p: Profile)
    requires Prop(body, "full_name") == ToValue(p.fullName)
    requires Prop(body, "roll_number") == ToValue(p.rollNumber)
    requires Prop(body, "email") == ToValue(p.email)
    requires Prop(body, "gender") == ToValue(p.gender)
    requires Prop(body, "dob") == ToValue(p.dob)
    requires Prop(body, "city") == ToValue(p.city)
    requires Prop(body, "interest") == ToValue(p.interest)
    requires Prop(body, "department") == ToValue(p.department)
    requires Prop(body, "degree_title") == ToValue(p.degreeTitle)
    requires Prop(body, "subject") == ToValue(p.subject)
    requires Prop(body, "start_date") == ToValue(p.startDate)
    requires Prop(body, "end_date") == ToValue(p.endDate)
    requires Prop(body, "photo") == ToValue(p.photo)
    ensures ProfileOf(body) == p
  {
  }

  /** Each column of a row's JSON sits under its own column name. */
  /* The column facts below are split into groups only to keep each proof
     small; the grouping has no meaning of its own. */

  lemma RowJsonNameToCity(s: Student)
    ensures Prop(RowJson(s), "full_name") == ToValue(s.profile.fullName)
    ensures Prop(RowJson(s), "roll_number") == ToValue(s.profile.rollNumber)
    ensures Prop(RowJson(s), "email") == ToValue(s.profile.email)
    ensures Prop(RowJson(s), "gender") == ToValue(s.profile.gender)
    ensures Prop(RowJson(s), "dob") == ToValue(s.profile.dob)
    ensures Prop(RowJson(s), "city") == ToValue(s.profile.city)
  {
  }

  lemma RowJsonInterestToPhoto(s: Student)
    ensures Prop(RowJson(s), "interest") == ToValue(s.profile.interest)
    ensures Prop(RowJson(s), "department") == ToValue(s.profile.department)
    ensures Prop(RowJson(s), "degree_title") == ToValue(s.profile.degreeTitle)
    ensures Prop(RowJson(s), "subject") == ToValue(s.profile.subject)
    ensures Prop(RowJson(s), "start_date") == ToValue(s.profile.startDate)
    ensures Prop(RowJson(s), "end_date") == ToValue(s.profile.endDate)
    ensures Prop(RowJson(s), "photo") == ToValue(s.profile.photo)
  {
  }

  /** A successful PUT followed by a GET of the same id returns the
      submitted values, if the id existed; other ids are unaffected. */
  lemma UpdateThenGet(store: Store, id: int, body: map<string, Value>, other: int)
    ensures Get(Update(store, id, body, true).store, id, true)
      == if HasId(store.rows, id) then Response(200, Row(Student(id, ProfileOf(body)))) else NotFound
    ensures other != id ==>
      Get(Update(store, id, body, true).store, other, true) == Get(store, other, true)
  {
    FindAfterReplace(store.rows, id, ProfileOf(body), other);
  }

  /** After a successful DELETE the id is not found; other ids are
      unaffected. */
  lemma DeleteThenGet(store: Store, id: int, other: int)
    ensures Get(Delete(store, id, true).store, id, true) == NotFound
    ensures other != id ==> Get(Delete(store, id, true).store, other, true) == Get(store, other, true)
  {
    FindAfterRemove(store.rows, id, other);
  }

  /** The id a successful create reports reads back the stored row. */
  lemma CreateThenGet(store: Store, fields: map<string, Value>, upload: Option<string>)
    requires Valid(store) && HasRequired(fields)
    ensures var r := Create(store, fields, upload, true);
      && r.response.body.Created?
      && Get(r.store, r.response.body.studentId, true)
         == Response(200, Row(Student(store.nextId, NewProfile(fields, upload))))
  {
    FindAfterInsert(store, NewProfile(fields, upload), store.nextId);
  }

  /** Twelve rows, pages of five: three pages, and the third holds the last
      two rows. */
  lemma TwelveRowsInPagesOfFive(store: Store)
    requires |store.rows| == 12
    ensures var r := List(store, Str("3"), Str("5"), true);
      && r.status == 200
      && r.body.totalPages == 3
      && r.body.currentPage == 3
      && r.body.students == store.rows[10..12]
  {
    ParamDefaults(DefaultPage, 3);
    ParamDefaults(DefaultSize, 5);
    assert NumberToString(3) == "3";
    assert NumberToString(5) == "5";
    var r := List(store, Str("3"), Str("5"), true);
    assert |r.body.students| == 2;
  }

  lemma ValidAfterHandlers(store: Store, id: int, fields: map<string, Value>, upload: Option<string>, dbOk: bool)
    requires Valid(store)
    ensures Valid(Create(store, fields, upload, dbOk).store)
    ensures Valid(Update(store, id, fields, dbOk).store)
    ensures Valid(Delete(store, id, dbOk).store)
  {
    InsertKeepsValid(store, NewProfile(fields, upload));
    ReplaceKeepsValid(store, id, ProfileOf(fields));
    RemoveKeepsValid(store, id);
  }
}

=== FILE: dashboard.dfy ===
/**
 * The in-process part of `GET /api/dashboard-stats`
 * (student-backend/index.js): ranking the hourly activity histogram of the
 * last thirty days into the most active, least active and dead hours.
 * The histogram itself comes from an SQL aggregate and is an input here.
 */
module Dashboard {
  import opened Js
  import opened Pagination

  /** One row of the hourly histogram: an hour of the day and the number of
      audit rows that fell in it. */
  datatype HourCount = HourCount(hour: int, count: int)

  /** The three lists the endpoint reports. */
  datatype HourRanking = HourRanking(mostActiveHours: seq<string>, leastActiveHours: seq<string>, deadHours: seq<string>)

  const RankedHours := 4
  const HoursPerDay := 24

  /* ----- The stable sort by count, largest first ----- */

  predicate SortedByCount(s: seq<HourCount>) {
    forall i, j :: 0 <= i < j < |s| ==> s[i].count >= s[j].count
  }

  /** The rows with count `c`, in their order in `s`. */
  function WithCount(s: seq<HourCount>, c: int): seq<HourCount> {
    if s == [] then []
    else WithCount(s[..|s| - 1], c) + (if s[|s| - 1].count == c then [s[|s| - 1]] else [])
  }

  /** Places `x` after every row whose count is at least its own. */
  function InsertByCount(r: seq<HourCount>, x: HourCount): (t: seq<HourCount>)
    ensures multiset(t) == multiset(r) + multiset{x}
    ensures |t| == |r| + 1
  {
    if r == [] then [x]
    else if r[|r| - 1].count >= x.count then r + [x]
    else
      assert r == r[..|r| - 1] + [r[|r| - 1]];
      InsertByCount(r[..|r| - 1], x) + [r[|r| - 1]]
  }

  lemma {:induction false} InsertKeepsSorted(r: seq<HourCount>, x: HourCount)
    requires SortedByCount(r)
    ensures SortedByCount(InsertByCount(r, x))
  {
    if r != [] && r[|r| - 1].count < x.count {
      var last := r[|r| - 1];
      var front := r[..|r| - 1];
      assert r == front + [last];
      InsertKeepsSorted(front, x);
      var u := InsertByCount(front, x);
      forall i | 0 <= i < |u| ensures u[i].count >= last.count {
        var y := u[i];
        assert y in multiset(u);
        if y != x {
          assert y in multiset(front);
          var j :| 0 <= j < |front| && front[j] == y;
          assert r[j] == front[j];
        }
      }
    }
  }

  /** `[...rows].sort((a, b) => b.count - a.count)`: JavaScript's sort is
      stable, so rows of equal count keep their order. */
  function SortByCount(s: seq<HourCount>): (t: seq<HourCount>)
    ensures SortedByCount(t)
    ensures multiset(t) == multiset(s)
    ensures |t| == |s|
  {
    if s == [] then []
    else
      assert s == s[..|s| - 1] + [s[|s| - 1]];
      InsertKeepsSorted(SortByCount(s[..|s| - 1]), s[|s| - 1]);
      InsertByCount(SortByCount(s[..|s| - 1]), s[|s| - 1])
  }

  lemma {:induction false} InsertWithCount(r: seq<HourCount>, x: HourCount, c: int)
    ensures WithCount(InsertByCount(r, x), c) == WithCount(r, c) + (if x.count == c then [x] else [])
  {
    if r == [] {
      assert [x][..0] == [];
    } else if r[|r| - 1].count >= x.count {
      assert (r + [x])[..|r|] == r;
    } else {
      var last := r[|r| - 1];
      var front := r[..|r| - 1];
      var t := InsertByCount(front, x) + [last];
      assert t[..|t| - 1] == InsertByCount(front, x);
      InsertWithCount(front, x, c);
    }
  }

  /** Stability: the sort keeps, for every count, the rows of that count in
      their original order. */
  lemma {:induction false} SortIsStable(s: seq<HourCount>, c: int)
    ensures WithCount(SortByCount(s), c) == WithCount(s, c)
  {
    if s != [] {
      SortIsStable(s[..|s| - 1], c);
      InsertWithCount(SortByCount(s[..|s| - 1]), s[|s| - 1], c);
    }
  }

  lemma {:induction false} WithCountMembers(s: seq<HourCount>, c: int, y: HourCount)
    requires y in WithCount(s, c)
    ensures y in s && y.count == c
  {
    if s != [] {
      var front := s[..|s| - 1];
      if y in WithCount(front, c) {
        WithCountMembers(front, c, y);
        assert y in front;
      }
    }
  }

  /** Being sorted and keeping every count's rows in order determines the
      result: any stable sort of the histogram yields `SortByCount`. */
  lemma {:induction false} StableSortIsUnique(a: seq<HourCount>, b: seq<HourCount>)
    requires SortedByCount(a) && SortedByCount(b)
    requires forall c :: WithCount(a, c) == WithCount(b, c)
    ensures a == b
    decreases |a| + |b|
  {
    if a == [] && b == [] {
    } else if a == [] {
      WithCountOfLast(b);
    } else if b == [] {
      WithCountOfLast(a);
    } else {
      var x, y := a[|a| - 1], b[|b| - 1];
      var a', b' := a[..|a| - 1], b[..|b| - 1];
      assert x in WithCount(a, x.count);
      assert y in WithCount(b, y.count);
      WithCountBelowLast(a, b, x);
      WithCountBelowLast(b, a, y);
      assert x.count == y.count;
      assert x == y by {
        var wa, wb := WithCount(a, x.count), WithCount(b, x.count);
        assert wa == WithCount(a', x.count) + [x];
        assert wb == WithCount(b', x.count) + [y];
        assert wa[|wa| - 1] == x;
        assert wb[|wb| - 1] == y;
      }
      forall c ensures WithCount(a', c) == WithCount(b', c) {
        var wa, wb := WithCount(a, c), WithCount(b, c);
        if c == x.count {
          assert wa == WithCount(a', c) + [x];
          assert wb == WithCount(b', c) + [y];
          assert WithCount(a', c) == wa[..|wa| - 1];
          assert WithCount(b', c) == wb[..|wb| - 1];
        } else {
          assert wa == WithCount(a', c);
          assert wb == WithCount(b', c);
        }
      }
      StableSortIsUnique(a', b');
    }
  }

  lemma WithCountOfLast(s: seq<HourCount>)
    requires s != []
    ensures WithCount(s, s[|s| - 1].count) != []
  {
  }

  /** In two sorted sequences with the same rows per count, the last row of
      `a` has a count no greater than the last row of `b`. */
  lemma WithCountBelowLast(a: seq<HourCount>, b: seq<HourCount>, x: HourCount)
    requires SortedByCount(b) && b != []
    requires x in WithCount(a, x.count)
    requires WithCount(a, x.count) == WithCount(b, x.count)
    ensures b[|b| - 1].count <= x.count
  {
    WithCountMembers(b, x.count, x);
    var j :| 0 <= j < |b| && b[j] == x;
    if j < |b| - 1 {
      assert b[j].count >= b[|b| - 1].count;
    }
  }

  /* ----- The three lists ----- */

  /** `${h}:00` */
  function Label(h: int): string {
    NumberToString(h) + ":00"
  }

  /** `.map(h => `${h.hour}:00`)` on a list of hours. Labels are
      injective, so a label is listed exactly when its hour is. */
  function HourLabels(hours: seq<int>): (r: seq<string>)
    ensures |r| == |hours|
    ensures forall i :: 0 <= i < |hours| ==> r[i] == Label(hours[i])
    ensures forall h :: Label(h) in r <==> h in hours
  {
    var r := seq(|hours|, i requires 0 <= i < |hours| => Label(hours[i]));
    forall h ensures Label(h) in r <==> h in hours {
      if Label(h) in r {
        var i :| 0 <= i < |r| && r[i] == Label(h);
        LabelInjective(hours[i], h);
      }
      if h in hours {
        var i :| 0 <= i < |hours| && hours[i] == h;
        assert r[i] == Label(h);
      }
    }
    r
  }

  /** The hours of the histogram rows, in order: an hour is listed exactly
      when some row carries it. */
  function Hours(s: seq<HourCount>): (r: seq<int>)
    ensures |r| == |s|
    ensures forall i :: 0 <= i < |s| ==> r[i] == s[i].hour
    ensures forall h :: h in r <==> exists i :: 0 <= i < |s| && s[i].hour == h
  {
    seq(|s|, i requires 0 <= i < |s| => s[i].hour)
  }

  /** `sortedHours.slice(0, 4)` */
  function Top(rows: seq<HourCount>): (t: seq<HourCount>)
    ensures |t| == Min(RankedHours, |rows|)
    ensures multiset(t) <= multiset(rows)
    ensures SortedByCount(t)
    ensures forall x, y :: x in t && y in multiset(rows) - multiset(t) ==> x.count >= y.count
  {
    var sorted := SortByCount(rows);
    var k := Min(RankedHours, |rows|);
    assert sorted == sorted[..k] + sorted[k..];
    forall x, y | x in sorted[..k] && y in multiset(rows) - multiset(sorted[..k])
      ensures x.count >= y.count
    {
      assert y in sorted[k..];
    }
    sorted[..k]
  }

  /** `sortedHours.slice(-4)`: the last four, or all of them when there are
      fewer. */
  function Bottom(rows: seq<HourCount>): (t: seq<HourCount>)
    ensures |t| == Min(RankedHours, |rows|)
    ensures multiset(t) <= multiset(rows)
    ensures SortedByCount(t)
    ensures forall x, y :: x in t && y in multiset(rows) - multiset(t) ==> x.count <= y.count
  {
    var sorted := SortByCount(rows);
    var k := Max(|rows| - RankedHours, 0);
    assert sorted == sorted[..k] + sorted[k..];
    forall x, y | x in sorted[k..] && y in multiset(rows) - multiset(sorted[k..])
      ensures x.count <= y.count
    {
      assert y in sorted[..k];
    }
    sorted[k..]
  }

  /** `hourlyActivity.filter(h => h.count === 0)`, in the histogram's order. */
  function Zeros(rows: seq<HourCount>): (r: seq<HourCount>)
    ensures |r| <= |rows|
    ensures forall x :: x in r <==> x in rows && x.count == 0
  {
    if rows == [] then []
    else (if rows[0].count == 0 then [rows[0]] else []) + Zeros(rows[1..])
  }

  /** The dead hours as written: the labels of the zero-count rows. */
  function DeadHours(rows: seq<HourCount>): seq<string> {
    HourLabels(Hours(Zeros(rows)))
  }

  /** An hour of the day without activity: no histogram row gives it a
      positive count. */
  predicate Quiet(rows: seq<HourCount>, h: int) {
    forall i :: 0 <= i < |rows| && rows[i].hour == h ==> rows[i].count == 0
  }

  /** The quiet hours from `h` to 23, in ascending order. */
  function QuietFrom(rows: seq<HourCount>, h: int): (r: seq<int>)
    requires 0 <= h <= HoursPerDay
    ensures forall x :: x in r <==> h <= x < HoursPerDay && Quiet(rows, x)
    ensures forall i, j :: 0 <= i < j < |r| ==> r[i] < r[j]
    decreases HoursPerDay - h
  {
    if h == HoursPerDay then []
    else
      var rest := QuietFrom(rows, h + 1);
      assert forall j :: 0 <= j < |rest| ==> h < rest[j] by {
        forall j | 0 <= j < |rest| ensures h < rest[j] {
          assert rest[j] in rest;
        }
      }
      (if Quiet(rows, h) then [h] else []) + rest
  }

  /** The dead hours as evidently intended: every hour of the day without
      activity, whether or not the histogram has a row for it. */
  function IdleHours(rows: seq<HourCount>): seq<string> {
    HourLabels(QuietFrom(rows, 0))
  }

  /** The endpoint's ranking as written: the dead hours are the labels of
      the histogram rows with count 0, so an hour is listed exactly when
      the histogram has a zero row for it. */
  function RankAsWritten(rows: seq<HourCount>): (r: HourRanking)
    ensures r.mostActiveHours == HourLabels(Hours(Top(rows)))
    ensures r.leastActiveHours == HourLabels(Hours(Bottom(rows)))
    ensures r.deadHours == DeadHours(rows)
    ensures forall h :: Label(h) in r.deadHours <==> exists i :: 0 <= i < |rows| && rows[i].hour == h && rows[i].count == 0
  {
    var r := HourRanking(HourLabels(Hours(Top(rows))), HourLabels(Hours(Bottom(rows))), DeadHours(rows));
    forall h ensures Label(h) in r.deadHours <==> exists i :: 0 <= i < |rows| && rows[i].hour == h && rows[i].count == 0 {
      DeadHoursExactly(rows, h);
    }
    r
  }

  /** A label is among the dead hours as written exactly when some
      histogram row for that hour has count 0. */
  lemma DeadHoursExactly(rows: seq<HourCount>, h: int)
    ensures Label(h) in DeadHours(rows) <==> exists i :: 0 <= i < |rows| && rows[i].hour == h && rows[i].count == 0
  {
    var z := Zeros(rows);
    assert Label(h) in DeadHours(rows) <==> h in Hours(z);
    if h in Hours(z) {
      var j :| 0 <= j < |z| && z[j].hour == h;
      assert z[j] in z;
      var i :| 0 <= i < |rows| && rows[i] == z[j];
    }
    if exists i :: 0 <= i < |rows| && rows[i].hour == h && rows[i].count == 0 {
      var i :| 0 <= i < |rows| && rows[i].hour == h && rows[i].count == 0;
      assert rows[i] in z;
      var j :| 0 <= j < |z| && z[j] == rows[i];
      assert Hours(z)[j] == h;
    }
  }

  /** The endpoint's ranking, with the dead hours computed as intended: the
      most and least active lists are the ones the endpoint reports, and an
      hour of the day is listed as dead exactly when it had no activity. */
  function Rank(rows: seq<HourCount>): (r: HourRanking)
    ensures |r.mostActiveHours| == Min(RankedHours, |rows|)
    ensures |r.leastActiveHours| == Min(RankedHours, |rows|)
    ensures r.mostActiveHours == HourLabels(Hours(Top(rows))) && r.leastActiveHours == HourLabels(Hours(Bottom(rows)))
    ensures forall h :: 0 <= h < HoursPerDay ==> (Label(h) in r.deadHours <==> Quiet(rows, h))
  {
    var r := HourRanking(HourLabels(Hours(Top(rows))), HourLabels(Hours(Bottom(rows))), IdleHours(rows));
    forall h | 0 <= h < HoursPerDay ensures Label(h) in r.deadHours <==> Quiet(rows, h) {
      IdleHoursExactly(rows, h);
    }
    r
  }

  /* ----- Properties of the labels and lists ----- */

  /** A label reads back as its hour, so distinct hours get distinct
      labels. */
  lemma LabelReadsBack(h: int)
    ensures ParseInt(Label(h)) == Int(h)
  {
    ParseIntOfNumberToString(h, ":00");
  }

  lemma LabelInjective(a: int, b: int)
    requires Label(a) == Label(b)
    ensures a == b
  {
    LabelReadsBack(a);
    LabelReadsBack(b);
  }

  /** An hour of the day is listed as idle exactly when it had no activity. */
  lemma IdleHoursExactly(rows: seq<HourCount>, h: int)
    requires 0 <= h < HoursPerDay
    ensures Label(h) in IdleHours(rows) <==> Quiet(rows, h)
  {
    assert Label(h) in IdleHours(rows) <==> h in QuietFrom(rows, 0);
  }

  /** As written, the dead hours are always empty: a GROUP BY row exists
      only for an hour that has audit rows, so no count is 0. */
  lemma DeadHoursOfGroupedRows(rows: seq<HourCount>)
    requires forall i :: 0 <= i < |rows| ==> 1 <= rows[i].count
    ensures DeadHours(rows) == []
  {
    NoZeros(rows);
  }

  lemma {:induction false} NoZeros(rows: seq<HourCount>)
    requires forall i :: 0 <= i < |rows| ==> 1 <= rows[i].count
    ensures Zeros(rows) == []
  {
    if rows != [] {
      NoZeros(rows[1..]);
    }
  }

  /** One request at nine o'clock in thirty days: the histogram is the single
      row (9, 1). The dead hours as written are empty, although three
      o'clock saw nothing. */
  lemma DeadHoursMissQuietHour()
    ensures DeadHours([HourCount(9, 1)]) == []
    ensures Label(3) in IdleHours([HourCount(9, 1)])
  {
    var rows := [HourCount(9, 1)];
    DeadHoursOfGroupedRows(rows);
    IdleHoursExactly(rows, 3);
  }

  /** A full-day histogram: one row per hour 0..23, in order. */
  predicate FullDay(rows: seq<HourCount>) {
    |rows| == HoursPerDay && forall h :: 0 <= h < HoursPerDay ==> rows[h].hour == h && 0 <= rows[h].count
  }

  /** On a full-day histogram, zero rows included, the filter as written and
      the intended idle hours agree. */
  lemma DeadHoursOnFullDay(rows: seq<HourCount>)
    requires FullDay(rows)
    ensures DeadHours(rows) == IdleHours(rows)
  {
    ZerosFrom(rows, 0);
    assert rows[0..] == rows;
  }

  lemma QuietOnFullDay(rows: seq<HourCount>, k: int)
    requires FullDay(rows) && 0 <= k < HoursPerDay
    ensures Quiet(rows, k) <==> rows[k].count == 0
  {
    if rows[k].count == 0 {
      forall i | 0 <= i < |rows| && rows[i].hour == k ensures rows[i].count == 0 {
        assert rows[i].hour == i;
      }
    }
  }

  /** The filter distributes over concatenation. */
  lemma {:induction false} ZerosAppend(a: seq<HourCount>, b: seq<HourCount>)
    ensures Zeros(a + b) == Zeros(a) + Zeros(b)
  {
    if a == [] {
      assert a + b == b;
    } else {
      assert (a + b)[1..] == a[1..] + b;
      ZerosAppend(a[1..], b);
    }
  }

  /** What the filter keeps of one row. */
  function ZerosHead(x: HourCount): seq<HourCount> {
    if x.count == 0 then [x] else []
  }

  lemma ZerosStep(rows: seq<HourCount>, k: nat)
    requires k < |rows|
    ensures Zeros(rows[k..]) == ZerosHead(rows[k]) + Zeros(rows[k + 1..])
  {
    assert rows[k..][1..] == rows[k + 1..];
  }

  lemma HoursAppend(a: seq<HourCount>, b: seq<HourCount>)
    ensures Hours(a + b) == Hours(a) + Hours(b)
  {
  }

  lemma {:induction false} ZerosFrom(rows: seq<HourCount>, k: nat)
    requires FullDay(rows) && k <= HoursPerDay
    ensures Hours(Zeros(rows[k..])) == QuietFrom(rows, k)
    decreases HoursPerDay - k
  {
    if k < HoursPerDay {
      ZerosFrom(rows, k + 1);
      QuietOnFullDay(rows, k);
      ZerosStep(rows, k);
      HoursAppend(ZerosHead(rows[k]), Zeros(rows[k + 1..]));
    } else {
      assert rows[k..] == [];
    }
  }
}

=== FILE: form_fields.dfy ===
/**
 * The twelve text inputs the add and edit forms share
 * (my-react-app/src/Components/AddStudentForm.jsx and UpdateStudent.jsx):
 * the form state keyed by each input's camelCase `name`, the change
 * handler, and the mapping of those names onto the table's snake_case
 * columns when the form is sent.
 */
module FormFields {
  import opened Js

  /** The form state: input name to its current text. */
  type Form = map<string, string>

  /** The inputs' names, in form order. */
  const Keys: seq<string> := [
    "fullName", "rollNumber", "email", "gender", "dob", "city",
    "interest", "department", "degreeTitle", "subject", "startDate", "endDate"]

  /** The column each input is sent as, position for position. */
  const Columns: seq<string> := [
    "full_name", "roll_number", "email", "gender", "dob", "city",
    "interest", "department", "degree_title", "subject", "start_date", "end_date"]

  /** `formData[k]`: a missing name reads as `undefined`. */
  function Lookup(f: Form, k: string): Value {
    if k in f then Str(f[k]) else Undefined
  }

  predicate Complete(f: Form) {
    forall k :: k in Keys ==> k in f
  }

  /** The initial state, and the one a cancel restores: every input empty. */
  function Blank(): (f: Form)
    ensures Complete(f)
    ensures forall k :: k in f <==> k in Keys
    ensures forall k :: k in f ==> f[k] == ""
  {
    map k | k in Keys :: ""
  }

  /** The change handler: `{ ...prev, [name]: value }`. */
  function Change(f: Form, name: string, value: string): (r: Form)
    ensures Complete(f) ==> Complete(r)
    ensures Lookup(r, name) == Str(value)
    ensures forall k :: k != name ==> Lookup(r, k) == Lookup(f, k)
  {
    f[name := value]
  }

  /** The twelve inputs under their column names, as both submit handlers
      build them. */
  function Payload(f: Form): map<string, Value> {
    map[
      "full_name" := Lookup(f, "fullName"),
      "roll_number" := Lookup(f, "rollNumber"),
      "email" := Lookup(f, "email"),
      "gender" := Lookup(f, "gender"),
      "dob" := Lookup(f, "dob"),
      "city" := Lookup(f, "city"),
      "interest" := Lookup(f, "interest"),
      "department" := Lookup(f, "department"),
      "degree_title" := Lookup(f, "degreeTitle"),
      "subject" := Lookup(f, "subject"),
      "start_date" := Lookup(f, "startDate"),
      "end_date" := Lookup(f, "endDate")]
  }

  /** The payload sends each input under the column at its position, and
      nothing else. */
  lemma PayloadByColumn(f: Form)
    ensures forall i :: 0 <= i < |Columns| ==> Prop(Payload(f), Columns[i]) == Lookup(f, Keys[i])
    ensures forall k :: k in Payload(f) <==> k in Columns
  {
    PayloadGroupOfFour(f, 0);
    PayloadGroupOfFour(f, 4);
    PayloadGroupOfFour(f, 8);
  }

  /** The four inputs from position `lo` on sit under their columns. The
      groups of four exist only to keep each proof small. */
  lemma PayloadGroupOfFour(f: Form, lo: nat)
    requires lo % 4 == 0 && lo + 4 <= |Columns|
    ensures forall i :: lo <= i < lo + 4 ==> Prop(Payload(f), Columns[i]) == Lookup(f, Keys[i])
  {
    var p := Payload(f);
    assert lo == 0 || lo == 4 || lo == 8;
    forall i | lo <= i < lo + 4 ensures Prop(p, Columns[i]) == Lookup(f, Keys[i]) {
      assert i == lo || i == lo + 1 || i == lo + 2 || i == lo + 3;
    }
  }
}

=== FILE: js.dfy ===
/**
 * The slice of JavaScript semantics the application code relies on:
 * truthiness and `||` defaulting, property lookup on plain objects,
 * `String.prototype.slice(0, n)`, `String(n)` for integers and the global
 * `parseInt` with no radix argument.
 */
module Js {

  /** A JavaScript value as this application meets it in query strings,
      headers, request bodies and JSON responses: missing, `null`, or a
      string. */
  datatype Value = Undefined | Null | Str(s: string)

  /** Of these values only a non-empty string is truthy. */
  predicate Truthy(v: Value) {
    v.Str? && v.s != ""
  }

  /** `a || b` */
  function Or(a: Value, b: Value): Value {
    if Truthy(a) then a else b
  }

  /** `v || ''`, which is always a string */
  function OrEmpty(v: Value): string {
    if Truthy(v) then v.s else ""
  }

  /** `String(v)` */
  function ToString(v: Value): string {
    match v
    case Undefined => "undefined"
    case Null => "null"
    case Str(s) => s
  }

  /** `o[k]` on a plain object: a missing key reads as `undefined`. */
  function Prop(o: map<string, Value>, k: string): Value {
    if k in o then o[k] else Undefined
  }

  /** `s.slice(0, n)` for a non-negative `n`: the longest prefix of `s` of
      length at most `n`. */
  function SliceTo(s: string, n: nat): (r: string)
    ensures r <= s
    ensures |r| <= n
    ensures |r| < n ==> r == s
  {
    if |s| <= n then s else s[..n]
  }

  /* ----- Numbers ----- */

  /** What `parseInt` can produce: `NaN` or an integer. */
  datatype Number = NaN | Int(i: int)

  /** The decimal digit `d` as a character. */
  function DigitChar(d: nat): char
    requires d < 10
  {
    (('0' as int) + d) as char
  }

  /** The value of `c` as a digit in any radix up to 36, and 36 when `c` is
      not a digit in any radix. */
  function DigitValue(c: char): nat {
    if '0' <= c <= '9' then c as int - '0' as int
    else if 'a' <= c <= 'z' then c as int - 'a' as int + 10
    else if 'A' <= c <= 'Z' then c as int - 'A' as int + 10
    else 36
  }

  predicate IsDigit(c: char, radix: nat) {
    DigitValue(c) < radix
  }

  /** The decimal rendering of a natural number, without leading zeros. */
  function Natural(n: nat): (r: string)
    ensures 1 <= |r|
    ensures forall i :: 0 <= i < |r| ==> IsDigit(r[i], 10)
    ensures r[0] == '0' ==> n == 0
    decreases n
  {
    if n < 10 then [DigitChar(n)] else Natural(n / 10) + [DigitChar(n % 10)]
  }

  /** `String(n)` (or a template literal `${n}`) for an integer `n`. */
  function NumberToString(n: int): string {
    if n < 0 then "-" + Natural(-n) else Natural(n)
  }

  /** The characters `parseInt` skips before the number: the ECMAScript
      WhiteSpace and LineTerminator code points. */
  predicate IsWhiteSpace(c: char) {
    var k := c as int;
    k == 0x09 || k == 0x0A || k == 0x0B || k == 0x0C || k == 0x0D || k == 0x20
    || k == 0xA0 || k == 0x1680 || (0x2000 <= k <= 0x200A) || k == 0x2028
    || k == 0x2029 || k == 0x202F || k == 0x205F || k == 0x3000 || k == 0xFEFF
  }

  /** `s` with its leading white space removed. */
  function TrimStart(s: string): (r: string)
    ensures |r| <= |s| && r == s[|s| - |r|..]
    ensures forall i :: 0 <= i < |s| - |r| ==> IsWhiteSpace(s[i])
    ensures 0 < |r| ==> !IsWhiteSpace(r[0])
  {
    if 0 < |s| && IsWhiteSpace(s[0]) then TrimStart(s[1..]) else s
  }

  /** The longest prefix of `s` made of digits in `radix`. */
  function DigitRun(s: string, radix: nat): (r: string)
    ensures r <= s
    ensures forall i :: 0 <= i < |r| ==> IsDigit(r[i], radix)
    ensures |r| < |s| ==> !IsDigit(s[|r|], radix)
  {
    if 0 < |s| && IsDigit(s[0], radix) then [s[0]] + DigitRun(s[1..], radix) else []
  }

  /** The value of a string of digits in `radix`, most significant first. */
  function DigitsValue(d: string, radix: nat): nat {
    if d == [] then 0 else DigitsValue(d[..|d| - 1], radix) * radix + DigitValue(d[|d| - 1])
  }

  /** The unsigned part of `parseInt`: switch to radix 16 after a `0x` or
      `0X` prefix, then read the longest run of digits; `NaN` when that run
      is empty. */
  function Magnitude(u: string): (r: Number)
    ensures r.Int? ==> 0 <= r.i
  {
    var hex := 2 <= |u| && u[0] == '0' && (u[1] == 'x' || u[1] == 'X');
    var radix := if hex then 16 else 10;
    var digits := DigitRun(if hex then u[2..] else u, radix);
    if digits == [] then NaN else Int(DigitsValue(digits, radix))
  }

  /** The global `parseInt(s)` with no radix: skip white space, take an
      optional sign, then read the magnitude. */
  function ParseInt(s: string): Number {
    Signed(TrimStart(s))
  }

  /** An optional sign, then the magnitude. */
  function Signed(t: string): Number {
    var negative := 0 < |t| && t[0] == '-';
    var u := if 0 < |t| && (t[0] == '-' || t[0] == '+') then t[1..] else t;
    match Magnitude(u)
    case NaN => NaN
    case Int(m) => Int(if negative then -m else m)
  }

  /** `parseInt` of a string with no digit after its white space and sign. */
  lemma ParseIntWithoutDigits(s: string)
    requires forall i :: 0 <= i < |s| ==> IsWhiteSpace(s[i])
    ensures ParseInt(s) == NaN
  {
    assert TrimStart(s) == [];
  }

  /** True of a text that cannot continue a number `parseInt` is reading:
      it is empty or starts with neither a decimal digit nor `x`/`X`. */
  predicate EndsNumber(rest: string) {
    rest == [] || (!IsDigit(rest[0], 10) && rest[0] != 'x' && rest[0] != 'X')
  }

  lemma {:induction false} DigitRunStops(d: string, rest: string, radix: nat)
    requires forall i :: 0 <= i < |d| ==> IsDigit(d[i], radix)
    requires rest == [] || !IsDigit(rest[0], radix)
    ensures DigitRun(d + rest, radix) == d
  {
    if d != [] {
      assert (d + rest)[1..] == d[1..] + rest;
      DigitRunStops(d[1..], rest, radix);
    }
  }

  lemma {:induction false} NaturalValue(n: nat)
    ensures DigitsValue(Natural(n), 10) == n
  {
    if 10 <= n {
      var r := Natural(n);
      assert r[..|r| - 1] == Natural(n / 10);
      NaturalValue(n / 10);
    }
  }

  lemma {:induction false} MagnitudeOfNatural(m: nat, rest: string)
    requires EndsNumber(rest)
    ensures Magnitude(Natural(m) + rest) == Int(m)
  {
    var d := Natural(m);
    var u := d + rest;
    if 2 <= |u| && u[0] == '0' {
      assert m == 0;
      assert u[1] == rest[0];
    }
    DigitRunStops(d, rest, 10);
    NaturalValue(m);
  }

  /** `parseInt` of a text whose first character is neither white space
      nor a sign reads just the magnitude. */
  lemma ParseIntUnsigned(s: string)
    requires 0 < |s| && !IsWhiteSpace(s[0]) && s[0] != '-' && s[0] != '+'
    ensures ParseInt(s) == Magnitude(s)
  {
    TrimNothing(s);
  }

  /** `parseInt` of a text starting with `-` negates the magnitude. */
  lemma ParseIntNegative(u: string, m: nat)
    requires Magnitude(u) == Int(m)
    ensures ParseInt("-" + u) == Int(-(m as int))
  {
    var s := "-" + u;
    assert s[1..] == u;
    TrimNothing(s);
  }

  lemma TrimNothing(s: string)
    requires 0 < |s| && !IsWhiteSpace(s[0])
    ensures ParseInt(s) == Signed(s)
  {
    assert TrimStart(s) == s;
  }

  lemma ParseIntOfNatural(n: int, rest: string)
    requires 0 <= n && EndsNumber(rest)
    ensures ParseInt(NumberToString(n) + rest) == Int(n)
  {
    var s := Natural(n) + rest;
    assert NumberToString(n) + rest == s;
    DigitIsNotBlank(s[0]);
    MagnitudeOfNatural(n, rest);
    ParseIntUnsigned(s);
  }

  lemma ParseIntOfNegated(n: int, rest: string)
    requires n < 0 && EndsNumber(rest)
    ensures ParseInt(NumberToString(n) + rest) == Int(n)
  {
    MagnitudeOfNatural(-n, rest);
    ParseIntNegative(Natural(-n) + rest, -n);
    SeqAssoc("-", Natural(-n), rest);
  }

  lemma DigitIsNotBlank(c: char)
    requires IsDigit(c, 10)
    ensures !IsWhiteSpace(c) && c != '-' && c != '+'
  {
  }

  lemma SeqAssoc(a: string, b: string, c: string)
    ensures a + (b + c) == a + b + c
  {
  }

  /** Reading a rendered integer back: `parseInt(String(n) + rest) == n`
      whenever `rest` cannot continue the number. */
  lemma ParseIntOfNumberToString(n: int, rest: string)
    requires EndsNumber(rest)
    ensures ParseInt(NumberToString(n) + rest) == Int(n)
  {
    if n < 0 {
      ParseIntOfNegated(n, rest);
    } else {
      ParseIntOfNatural(n, rest);
    }
  }

  /** Different integers render differently. */
  lemma NumberToStringInjective(a: int, b: int)
    requires NumberToString(a) == NumberToString(b)
    ensures a == b
  {
    ParseIntOfNumberToString(a, "");
    ParseIntOfNumberToString(b, "");
    assert NumberToString(a) + "" == NumberToString(b) + "";
  }
}

=== FILE: pagination.dfy ===
/**
 * The arithmetic behind `GET /api/students?page=&size=`
 * (student-backend/index.js): defaulting of the two query parameters,
 * the row offset, the `LIMIT ? OFFSET ?` window and the page count.
 */
module Pagination {
  import opened Js

  const DefaultPage := 1
  const DefaultSize := 5

  function Min(a: int, b: int): int { if a <= b then a else b }
  function Max(a: int, b: int): int { if a <= b then b else a }

  /** `parseInt(q) || default`: `NaN` and 0 fall back to the default; any
      other integer is kept, a negative one included. */
  function Param(q: Value, default: int): (r: int)
    ensures default != 0 ==> r != 0
    ensures r == default || ParseInt(ToString(q)) == Int(r)
    ensures ParseInt(ToString(q)) == NaN || ParseInt(ToString(q)) == Int(0) ==> r == default
    ensures ParseInt(ToString(q)).Int? && ParseInt(ToString(q)).i != 0 ==> r == ParseInt(ToString(q)).i
  {
    match ParseInt(ToString(q))
    case NaN => default
    case Int(n) => if n == 0 then default else n
  }

  /** `(page - 1) * size` */
  function Offset(page: int, size: int): (r: int)
    ensures page == DefaultPage ==> r == 0
    ensures 1 <= page && 0 <= size ==> 0 <= r
  {
    (page - 1) * size
  }

  /** `Math.ceil(total / size)` for a positive size. */
  function PageCount(total: nat, size: int): (r: nat)
    requires 1 <= size
    ensures total == 0 ==> r == 0
    ensures 0 < total ==> (r - 1) * size < total <= r * size
  {
    var q := (total + size - 1) / size;
    assert total + size - 1 == q * size + (total + size - 1) % size;
    q
  }

  /** `LIMIT size OFFSET offset` over the rows in table order. */
  function Window<T>(rows: seq<T>, offset: nat, size: nat): (r: seq<T>)
    ensures |r| == Min(size, Max(0, |rows| - offset))
    ensures forall i :: 0 <= i < |r| ==> r[i] == rows[offset + i]
  {
    var lo := Min(offset, |rows|);
    var hi := Min(offset + size, |rows|);
    rows[lo..hi]
  }

  /** `shown` is page `page` of `rows` at `size` rows a page, and `count`
      is the number of pages: just enough pages of `size` to hold the rows. */
  predicate IsPage<T(==)>(rows: seq<T>, page: int, size: int, shown: seq<T>, count: int) {
    var offset := Offset(page, size);
    && 0 <= offset
    && |shown| == Min(size, Max(0, |rows| - offset))
    && (forall i :: 0 <= i < |shown| ==> 0 <= offset + i < |rows| && shown[i] == rows[offset + i])
    && (|rows| == 0 ==> count == 0)
    && (0 < |rows| ==> (count - 1) * size < |rows| <= count * size)
  }

  /** The window and the page count the list handler computes form that
      page. */
  lemma WindowIsPage<T>(rows: seq<T>, page: int, size: int)
    requires 1 <= page && 1 <= size
    ensures 0 <= Offset(page, size)
    ensures IsPage(rows, page, size, Window(rows, Offset(page, size), size), PageCount(|rows|, size))
  {
    OffsetIsWholePages(page, size);
  }

  /** What the two parameters become: a missing, empty, non-numeric or zero
      parameter takes the default; a rendered non-zero integer, negative
      ones included, is read back unchanged. */
  lemma ParamDefaults(default: int, n: int)
    ensures Param(Undefined, default) == default
    ensures Param(Str(""), default) == default
    ensures Param(Str("0"), default) == default
    ensures n != 0 ==> Param(Str(NumberToString(n)), default) == n
  {
    ParamOfUndefined(default);
    ParamOfEmpty(default);
    ParamOfZero(default);
    if n != 0 {
      ParamReadsBack(n, default);
    }
  }

  lemma ParamOfUndefined(default: int)
    ensures Param(Undefined, default) == default
  {
    var u := "undefined";
    assert ToString(Undefined) == u;
    assert !IsDigit(u[0], 10);
    ParseIntUnsigned(u);
    assert DigitRun(u, 10) == [];
  }

  lemma ParamOfEmpty(default: int)
    ensures Param(Str(""), default) == default
  {
    ParseIntWithoutDigits("");
  }

  lemma ParamOfZero(default: int)
    ensures Param(Str("0"), default) == default
  {
    ParseIntOfNumberToString(0, "");
    assert NumberToString(0) + "" == "0";
  }

  lemma ParamReadsBack(n: int, default: int)
    requires n != 0
    ensures Param(Str(NumberToString(n)), default) == n
  {
    ParseIntOfNumberToString(n, "");
    assert NumberToString(n) + "" == NumberToString(n);
  }

  /** For a page and size of at least 1 the offset is a non-negative
      multiple of the size: the first row of page `page`. */
  lemma OffsetIsWholePages(page: int, size: int)
    requires 1 <= page && 1 <= size
    ensures 0 <= Offset(page, size)
    ensures Offset(page, size) % size == 0
    ensures Offset(page, size) / size == page - 1
  {
    var k := page - 1;
    assert Offset(page, size) == k * size;
    assert 0 <= k * size;
    LemmaMulDiv(k, size);
  }

  lemma LemmaMulDiv(k: nat, size: int)
    requires 1 <= size
    ensures (k * size) % size == 0 && (k * size) / size == k
  {
    var q := (k * size) / size;
    var m := (k * size) % size;
    assert k * size == q * size + m;
    assert (k - q) * size == m;
    MulBounds(k - q, size);
  }

  lemma MulBounds(d: int, size: int)
    requires 1 <= size
    ensures 1 <= d ==> size <= d * size
    ensures d <= -1 ==> d * size <= -size
  {
    if 1 <= d {
      assert d * size == size + (d - 1) * size;
    } else if d <= -1 {
      assert d * size == -size + (d + 1) * size;
    }
  }

  /** A page number between 1 and the page count selects a non-empty
      window, and one past the count selects an empty one. */
  lemma PagesInRangeAreNonEmpty(rows: nat, page: int, size: int)
    requires 1 <= size && 1 <= page
    ensures page <= PageCount(rows, size) ==> 0 < Min(size, Max(0, rows - Offset(page, size)))
    ensures PageCount(rows, size) < page ==> Min(size, Max(0, rows - Offset(page, size))) == 0
  {
    var n := PageCount(rows, size);
    if page <= n {
      MulMonotone(page - 1, n - 1, size);
    } else {
      MulMonotone(n, page - 1, size);
    }
  }

  lemma MulMonotone(a: int, b: int, size: int)
    requires a <= b && 1 <= size
    ensures a * size <= b * size
  {
    if a < b {
      MulBounds(b - a, size);
      assert b * size - a * size == (b - a) * size;
    }
  }
}

=== FILE: server.dfy ===
/**
 * One request through the server: the activity-logging middleware, then
 * the route's handler. Routing itself is given: a request arrives already
 * paired with the route it matched, and `Matches` says what a match
 * requires of the request's method.
 */
module Server {
  import opened Js
  import opened Wrappers
  import opened Students
  import opened Api
  import opened Activity

  /** The student routes, with what each handler reads from the request. */
  datatype Route =
    | ListStudents(page: Value, size: Value)
    | GetStudent(id: int)
    | CreateStudent(fields: map<string, Value>, upload: Option<string>)
    | UpdateStudent(id: int, body: map<string, Value>)
    | DeleteStudent(id: int)
      /** Anything no student handler serves: a CORS preflight, which
          `cors()` answers before the middleware, the dashboard route, or
          an unknown path. Its reply comes from outside this model. */
    | NoStudentRoute(reply: Response)

  /** Both tables. */
  datatype State = State(store: Store, log: Log)

  /** What the environment decides about one request: the clock, whether
      the audit insert succeeded, and whether the handler's statements did. */
  datatype Conditions = Conditions(now: int, logged: bool, dbOk: bool)

  /** One request of a run. */
  datatype Step = Step(request: Request, route: Route, conditions: Conditions)

  /** The router pairs a request only with a route registered for its
      method (`app.get`, `app.post`, `app.put`, `app.delete`), so a
      preflight never reaches a student handler. */
  predicate Matches(step: Step) {
    match step.route
    case ListStudents(_, _) => step.request.verb == "GET"
    case GetStudent(_) => step.request.verb == "GET"
    case CreateStudent(_, _) => step.request.verb == "POST"
    case UpdateStudent(_, _) => step.request.verb == "PUT"
    case DeleteStudent(_) => step.request.verb == "DELETE"
    case NoStudentRoute(_) => true
  }

  predicate AllMatch(steps: seq<Step>) {
    forall i :: 0 <= i < |steps| ==> Matches(steps[i])
  }

  /** Route dispatch: the list and get handlers and the routes outside the
      student table only read it. */
  function Handle(store: Store, route: Route, dbOk: bool): (r: Outcome)
    ensures route.ListStudents? || route.GetStudent? || route.NoStudentRoute? ==> r.store == store
    ensures !dbOk ==> r.store == store
  {
    match route
    case ListStudents(page, size) => Outcome(store, List(store, page, size, dbOk))
    case GetStudent(id) => Outcome(store, Get(store, id, dbOk))
    case CreateStudent(fields, upload) => Create(store, fields, upload, dbOk)
    case UpdateStudent(id, body) => Update(store, id, body, dbOk)
    case DeleteStudent(id) => Delete(store, id, dbOk)
    case NoStudentRoute(reply) => Outcome(store, reply)
  }

  /** The middleware records the request and calls `next()` in every case,
      so the handler runs on the table as it was. */
  function Serve(st: State, step: Step): (r: (State, Response))
    requires Matches(step)
    ensures st.log.entries <= r.0.log.entries
    ensures |r.0.log.entries| == |st.log.entries|
      + (if step.request.verb != Preflight && step.conditions.logged then 1 else 0)
    ensures step.route.NoStudentRoute? ==> r.0.store == st.store && r.1 == step.route.reply
    ensures step.request.verb == Preflight ==> r.0.store == st.store && r.0.log.entries == st.log.entries
    ensures r.0.log == Record(st.log, step.request, step.conditions.now, step.conditions.logged)
    ensures r.0.store == Handle(st.store, step.route, step.conditions.dbOk).store
    ensures r.1 == Handle(st.store, step.route, step.conditions.dbOk).response
  {
    var c := step.conditions;
    var log := Record(st.log, step.request, c.now, c.logged);
    var out := Handle(st.store, step.route, c.dbOk);
    (State(out.store, log), out.response)
  }

  /** Whether the audit insert succeeded changes nothing but the log. */
  lemma LoggingNeverBlocks(st: State, req: Request, route: Route, now: int, dbOk: bool)
    requires Matches(Step(req, route, Conditions(now, true, dbOk)))
    ensures var a := Serve(st, Step(req, route, Conditions(now, true, dbOk)));
            var b := Serve(st, Step(req, route, Conditions(now, false, dbOk)));
            a.0.store == b.0.store && a.1 == b.1
  {}

  /** The tables after a sequence of requests. */
  function Run(st: State, steps: seq<Step>): State
    requires AllMatch(steps)
    decreases |steps|
  {
    if steps == [] then st else Run(Serve(st, steps[0]).0, steps[1..])
  }

  /** How many of the steps leave an audit row: those that are not
      preflights and whose insert succeeded. */
  function Audited(steps: seq<Step>): nat {
    if steps == [] then 0
    else
      var s := steps[0];
      (if s.request.verb != Preflight && s.conditions.logged then 1 else 0) + Audited(steps[1..])
  }

  /** The log only grows, by exactly one row per audited request. */
  lemma {:induction false} RunLogGrows(st: State, steps: seq<Step>)
    requires AllMatch(steps)
    ensures st.log.entries <= Run(st, steps).log.entries
    ensures |Run(st, steps).log.entries| == |st.log.entries| + Audited(steps)
    decreases |steps|
  {
    if steps != [] {
      var next := Serve(st, steps[0]).0;
      RunLogGrows(next, steps[1..]);
    }
  }

  /** Distinct ids below the counter hold after any run of requests. */
  lemma {:induction false} RunKeepsValid(st: State, steps: seq<Step>)
    requires Valid(st.store) && AllMatch(steps)
    ensures Valid(Run(st, steps).store)
    decreases |steps|
  {
    if steps != [] {
      var step := steps[0];
      var c := step.conditions;
      match step.route {
        case CreateStudent(fields, upload) =>
          ValidAfterHandlers(st.store, 0, fields, upload, c.dbOk);
        case UpdateStudent(id, body) =>
          ValidAfterHandlers(st.store, id, body, None, c.dbOk);
        case DeleteStudent(id) =>
          ValidAfterHandlers(st.store, id, map[], None, c.dbOk);
        case _ =>
      }
      RunKeepsValid(Serve(st, step).0, steps[1..]);
    }
  }
}

=== FILE: student_list.dfy ===
/**
 * The list page (my-react-app/src/Components/StudentList.jsx): the page
 * and size it asks the server for, the four navigation buttons and when
 * they are disabled, the page-size selector, and the local removal of a
 * deleted row.
 */
module StudentList {
  import opened Js
  import opened Students
  import opened Pagination
  import opened Api

  /** The component's state. `totalPages` is whatever the last successful
      fetch reported. */
  datatype ListView = ListView(students: seq<Student>, page: int, size: int, totalPages: int)

  /** Before the first fetch: no rows, page 1 of 1, five per page. */
  const Initial := ListView([], 1, 5, 1)

  /** The size selector's three options. */
  const SizeOptions: set<int> := {5, 10, 20}

  datatype Nav = First | Previous | Next | Last

  /** The `disabled` attribute of each button. */
  predicate Disabled(v: ListView, b: Nav) {
    match b
    case First => v.page == 1
    case Previous => v.page == 1
    case Next => v.page == v.totalPages
    case Last => v.page == v.totalPages
  }

  /** The page each button asks for. */
  function Target(v: ListView, b: Nav): int {
    match b
    case First => 1
    case Previous => Max(v.page - 1, 1)
    case Next => Min(v.page + 1, v.totalPages)
    case Last => v.totalPages
  }

  /** Pressing a button: a disabled one does nothing. */
  function Press(v: ListView, b: Nav): (r: ListView)
    ensures r.students == v.students && r.size == v.size && r.totalPages == v.totalPages
    ensures Disabled(v, b) ==> r == v
  {
    if Disabled(v, b) then v else v.(page := Target(v, b))
  }

  predicate InRange(v: ListView) {
    1 <= v.page <= v.totalPages
  }

  /** Within range, the buttons keep the page in range, and a button is
      disabled exactly when it would not move. */
  lemma NavigationStaysInRange(v: ListView, b: Nav)
    requires InRange(v)
    ensures InRange(Press(v, b))
    ensures Disabled(v, b) <==> Target(v, b) == v.page
  {
  }

  /** With an empty table the server reports 0 pages; page 1 is then not
      equal to the count, so Next and Last stay enabled and move to page
      0, which the server reads as page 1. */
  lemma NextOnEmptyTable(v: ListView)
    requires v.page == 1 && v.totalPages == 0
    ensures !Disabled(v, Next) && Press(v, Next).page == 0
    ensures !Disabled(v, Last) && Press(v, Last).page == 0
    ensures Param(Str(NumberToString(0)), DefaultPage) == DefaultPage
  {
    assert NumberToString(0) == "0";
    ParamOfZero(DefaultPage);
  }

  /** The size selector: its options are the numbers 5, 10 and 20, which
      the `<select>` reports as strings; `setSize(parseInt(value))` reads
      the choice back. The page is kept. */
  function ChooseSize(v: ListView, choice: int): (r: ListView)
    requires choice in SizeOptions
    ensures r.size == choice
    ensures r.page == v.page && r.students == v.students && r.totalPages == v.totalPages
  {
    ParseIntOfNumberToString(choice, "");
    assert NumberToString(choice) + "" == NumberToString(choice);
    match ParseInt(NumberToString(choice))
    case Int(n) => v.(size := n)
    case NaN => v
  }

  /** The fetch the effect runs whenever page or size change:
      `?page=${page}&size=${size}`. A successful reply replaces the rows and
      the page count; a failed one (an alert) leaves the view as it was. */
  function Refresh(v: ListView, store: Store, dbOk: bool): (r: ListView)
    ensures r.page == v.page && r.size == v.size
    ensures !dbOk ==> r == v
  {
    var r := List(store, Str(NumberToString(v.page)), Str(NumberToString(v.size)), dbOk);
    if r.status == 200 then v.(students := r.body.students, totalPages := r.body.totalPages)
    else v
  }

  /** For a positive page and size the server reads back exactly the page
      and size the view sent, so the view shows the window at
      `(page - 1) * size` and a page count whose pages just cover the rows. */
  lemma RefreshShowsPage(v: ListView, store: Store)
    requires 1 <= v.page && 1 <= v.size
    ensures var r := Refresh(v, store, true);
      && r.page == v.page && r.size == v.size
      && IsPage(store.rows, v.page, v.size, r.students, r.totalPages)
  {
    ListReadsBack(store, v.page, v.size);
  }

  /** The query string the view builds is read back as the same page and
      size. */
  lemma ListReadsBack(store: Store, page: int, size: int)
    requires 1 <= page && 1 <= size
    ensures List(store, Str(NumberToString(page)), Str(NumberToString(size)), true)
      == ListPage(store.rows, page, size, true)
  {
    ParamReadsBack(page, DefaultPage);
    ParamReadsBack(size, DefaultSize);
  }

  /** Twelve students, five per page, on page 3; choosing 20 per page keeps
      page 3, which is now past the single page, so the table is empty and
      reads "page 3 of 1". */
  lemma SizeChangeCanLeavePageOutOfRange(store: Store)
    requires |store.rows| == 12
    ensures var v := Refresh(ChooseSize(ListView(store.rows[10..], 3, 5, 3), 20), store, true);
      && v.page == 3 && v.size == 20 && v.totalPages == 1 && v.students == []
      && !InRange(v)
  {
    var v := ChooseSize(ListView(store.rows[10..], 3, 5, 3), 20);
    RefreshShowsPage(v, store);
  }

  /** The delete button: after a confirmation and a successful request the
      row is dropped from the rows on screen; the page is not refetched. */
  function HandleDelete(v: ListView, id: int, confirmed: bool, ok: bool): (r: ListView)
    ensures r.page == v.page && r.size == v.size && r.totalPages == v.totalPages
    ensures confirmed && ok ==> forall s :: s in r.students <==> s in v.students && s.id != id
    ensures !(confirmed && ok) ==> r == v
  {
    if confirmed && ok then v.(students := Remove(v.students, id)) else v
  }

  /** The screen stays a view of the table: when every row shown is in the
      table, after a delete through the server every row still shown is in
      the table afterwards. */
  lemma DeleteKeepsViewConsistent(v: ListView, store: Store, id: int)
    requires forall s :: s in v.students ==> s in store.rows
    ensures var after := Delete(store, id, true);
      var w := HandleDelete(v, id, true, after.response.status == 200);
      forall s :: s in w.students ==> s in after.store.rows
  {
  }
}

=== FILE: students.dfy ===
/**
 * The `students` table: rows of thirteen nullable columns keyed by an
 * AUTO_INCREMENT id, and the three statements the handlers run against it
 * (`SELECT ... WHERE id = ?`, `UPDATE ... WHERE id = ?`,
 * `DELETE ... WHERE id = ?`) plus the insert of a new row.
 */
module Students {
  import opened Js
  import opened Wrappers

  /** A column value as the database holds it. */
  datatype Cell = SqlNull | Text(s: string)

  /** Binding a statement parameter: the driver sends both `undefined` and
      `null` as SQL NULL. */
  function ToCell(v: Value): Cell {
    match v
    case Str(s) => Text(s)
    case _ => SqlNull
  }

  /** A column value as it appears in a JSON response. */
  function ToValue(c: Cell): Value {
    match c
    case SqlNull => Null
    case Text(s) => Str(s)
  }

  /** The thirteen columns of a student besides its id. */
  datatype Profile = Profile(
    fullName: Cell, rollNumber: Cell, email: Cell, gender: Cell, dob: Cell,
    city: Cell, interest: Cell, department: Cell, degreeTitle: Cell,
    subject: Cell, startDate: Cell, endDate: Cell, photo: Cell)

  datatype Student = Student(id: nat, profile: Profile)

  /** The table: its rows in the order the database returns them (insertion
      order), and the next AUTO_INCREMENT value. */
  datatype Store = Store(rows: seq<Student>, nextId: nat)

  predicate HasId(rows: seq<Student>, id: int) {
    exists i :: 0 <= i < |rows| && rows[i].id == id
  }

  predicate UniqueIds(rows: seq<Student>) {
    forall i, j :: 0 <= i < j < |rows| ==> rows[i].id != rows[j].id
  }

  /** Ids are distinct and every one was handed out by the counter. */
  predicate Valid(store: Store) {
    && UniqueIds(store.rows)
    && forall i :: 0 <= i < |store.rows| ==> store.rows[i].id < store.nextId
  }

  lemma HasIdCons(rows: seq<Student>, id: int)
    requires rows != []
    ensures HasId(rows, id) <==> rows[0].id == id || HasId(rows[1..], id)
  {
    if HasId(rows, id) && rows[0].id != id {
      var i :| 0 <= i < |rows| && rows[i].id == id;
      assert rows[1..][i - 1].id == id;
    }
    if HasId(rows[1..], id) {
      var i :| 0 <= i < |rows[1..]| && rows[1..][i].id == id;
      assert rows[i + 1].id == id;
    }
  }

  /** `SELECT * FROM students WHERE id = ?`, first row of the result. */
  function Find(rows: seq<Student>, id: int): (r: Option<Student>)
    ensures r.Some? <==> HasId(rows, id)
    ensures r.Some? ==> r.value in rows && r.value.id == id
  {
    if rows == [] then None
    else if rows[0].id == id then Some(rows[0])
    else
      assert forall i :: 1 <= i < |rows| ==> rows[i] == rows[1..][i - 1];
      Find(rows[1..], id)
  }

  /** `UPDATE students SET <all thirteen columns> WHERE id = ?` */
  function Replace(rows: seq<Student>, id: int, p: Profile): (r: seq<Student>)
    ensures |r| == |rows|
    ensures forall i :: 0 <= i < |rows| ==> r[i].id == rows[i].id
    ensures forall i :: 0 <= i < |rows| ==>
      r[i].profile == (if rows[i].id == id then p else rows[i].profile)
  {
    if rows == [] then []
    else
      var head := if rows[0].id == id then Student(id, p) else rows[0];
      [head] + Replace(rows[1..], id, p)
  }

  /** `DELETE FROM students WHERE id = ?` */
  function Remove(rows: seq<Student>, id: int): (r: seq<Student>)
    ensures forall s :: s in r <==> s in rows && s.id != id
    ensures |r| <= |rows|
  {
    if rows == [] then []
    else (if rows[0].id == id then [] else [rows[0]]) + Remove(rows[1..], id)
  }

  /** `INSERT INTO students ...`: the new row takes the counter's value. */
  function Insert(store: Store, p: Profile): (r: Store)
    ensures |r.rows| == |store.rows| + 1
    ensures r.rows[..|store.rows|] == store.rows
    ensures r.rows[|store.rows|] == Student(store.nextId, p)
    ensures r.nextId == store.nextId + 1
  {
    Store(store.rows + [Student(store.nextId, p)], store.nextId + 1)
  }

  /* ----- Reading back what was written ----- */

  /** After an update, the row with that id reads back the new columns and
      every other id reads as before. */
  lemma {:induction false} FindAfterReplace(rows: seq<Student>, id: int, p: Profile, other: int)
    ensures Find(Replace(rows, id, p), id) == (if HasId(rows, id) then Some(Student(id, p)) else None)
    ensures other != id ==> Find(Replace(rows, id, p), other) == Find(rows, other)
  {
    if rows != [] {
      var r := Replace(rows, id, p);
      assert r[1..] == Replace(rows[1..], id, p);
      FindAfterReplace(rows[1..], id, p, other);
      HasIdCons(rows, id);
    }
  }

  /** After a delete, no row has that id and every other id reads as
      before. */
  lemma {:induction false} FindAfterRemove(rows: seq<Student>, id: int, other: int)
    ensures Find(Remove(rows, id), id) == None
    ensures other != id ==> Find(Remove(rows, id), other) == Find(rows, other)
  {
    if rows != [] {
      FindAfterRemove(rows[1..], id, other);
      var tail := Remove(rows[1..], id);
      if rows[0].id != id {
        assert Remove(rows, id) == [rows[0]] + tail;
        assert ([rows[0]] + tail)[1..] == tail;
      } else {
        assert Remove(rows, id) == tail;
      }
    }
  }

  /** Deleting keeps the surviving rows in their order: it distributes over
      concatenation. */
  lemma {:induction false} RemoveAppend(a: seq<Student>, b: seq<Student>, id: int)
    ensures Remove(a + b, id) == Remove(a, id) + Remove(b, id)
  {
    if a != [] {
      assert (a + b)[1..] == a[1..] + b;
      RemoveAppend(a[1..], b, id);
    } else {
      assert a + b == b;
    }
  }

  /** Deleting an id no row has changes nothing. */
  lemma {:induction false} RemoveAbsent(rows: seq<Student>, id: int)
    requires !HasId(rows, id)
    ensures Remove(rows, id) == rows
  {
    if rows != [] {
      HasIdCons(rows, id);
      RemoveAbsent(rows[1..], id);
      assert rows == [rows[0]] + rows[1..];
    }
  }

  /** An inserted row reads back under its new id; other ids read as before. */
  lemma FindAfterInsert(store: Store, p: Profile, other: int)
    requires Valid(store)
    ensures Find(Insert(store, p).rows, store.nextId) == Some(Student(store.nextId, p))
    ensures other != store.nextId ==> Find(Insert(store, p).rows, other) == Find(store.rows, other)
  {
    FindAppend(store.rows, Student(store.nextId, p), store.nextId);
    FindAppend(store.rows, Student(store.nextId, p), other);
  }

  lemma {:induction false} FindAppend(rows: seq<Student>, s: Student, id: int)
    ensures Find(rows + [s], id) == if HasId(rows, id) then Find(rows, id)
                                    else if s.id == id then Some(s) else None
  {
    if rows != [] {
      assert (rows + [s])[1..] == rows[1..] + [s];
      FindAppend(rows[1..], s, id);
      HasIdCons(rows, id);
    } else {
      assert [] + [s] == [s];
    }
  }

  /* ----- The table invariant ----- */

  lemma InsertKeepsValid(store: Store, p: Profile)
    requires Valid(store)
    ensures Valid(Insert(store, p))
  {}

  lemma ReplaceKeepsValid(store: Store, id: int, p: Profile)
    requires Valid(store)
    ensures Valid(Store(Replace(store.rows, id, p), store.nextId))
  {}

  lemma {:induction false} RemoveKeepsValid(store: Store, id: int)
    requires Valid(store)
    ensures Valid(Store(Remove(store.rows, id), store.nextId))
  {
    RemoveKeepsUnique(store.rows, id);
  }

  lemma {:induction false} RemoveKeepsUnique(rows: seq<Student>, id: int)
    requires UniqueIds(rows)
    ensures UniqueIds(Remove(rows, id))
  {
    if rows != [] {
      RemoveKeepsUnique(rows[1..], id);
      var tail := Remove(rows[1..], id);
      if rows[0].id != id {
        forall s | s in tail ensures s.id != rows[0].id {
          assert s in rows[1..];
        }
      }
    }
  }
}

=== FILE: update_form.dfy ===
/**
 * The edit page (my-react-app/src/Components/UpdateStudent.jsx): it loads a
 * student's JSON into the form, accepting either camelCase or snake_case
 * keys and cutting the three dates to `YYYY-MM-DD`, lets the inputs
 * change it, and sends the thirteen values back as a PUT body keyed by
 * column name.
 */
module UpdateForm {
  import opened Js
  import opened Students
  import opened Api
  import opened FormFields

  /** The edit form's extra entry: the stored photo path, shown but not
      editable. */
  const PhotoKey := "photo"

  /** Length of a `YYYY-MM-DD` date. */
  const DateLength := 10

  /** The state before the student has loaded: all thirteen entries empty. */
  function Initial(): (f: Form)
    ensures Complete(f) && PhotoKey in f
    ensures forall k :: k in f ==> f[k] == ""
  {
    Blank()[PhotoKey := ""]
  }

  /** `data[a] || data[b] || ''` */
  function Either(data: map<string, Value>, a: string, b: string): string {
    OrEmpty(Or(Prop(data, a), Prop(data, b)))
  }

  /** The form filled from the fetched student: each input from its
      camelCase key or else its column name (`date_of_birth` for the birth
      date), the three dates cut to ten characters, the photo path as sent. */
  function Load(data: map<string, Value>): (f: Form)
    ensures Complete(f) && PhotoKey in f
  {
    map[
      "fullName" := Either(data, "fullName", "full_name"),
      "rollNumber" := Either(data, "rollNumber", "roll_number"),
      "email" := OrEmpty(Prop(data, "email")),
      "gender" := OrEmpty(Prop(data, "gender")),
      "dob" := SliceTo(Either(data, "dob", "date_of_birth"), DateLength),
      "city" := OrEmpty(Prop(data, "city")),
      "interest" := OrEmpty(Prop(data, "interest")),
      "department" := OrEmpty(Prop(data, "department")),
      "degreeTitle" := Either(data, "degreeTitle", "degree_title"),
      "subject" := OrEmpty(Prop(data, "subject")),
      "startDate" := SliceTo(Either(data, "startDate", "start_date"), DateLength),
      "endDate" := SliceTo(Either(data, "endDate", "end_date"), DateLength),
      PhotoKey := OrEmpty(Prop(data, PhotoKey))]
  }

  /** The PUT body: the twelve inputs by column, and the photo path. */
  function Submit(f: Form): (r: map<string, Value>)
    ensures forall k :: k in r <==> k in Columns || k == PhotoKey
    ensures forall i :: 0 <= i < |Columns| ==> Prop(r, Columns[i]) == Lookup(f, Keys[i])
    ensures Prop(r, PhotoKey) == Lookup(f, PhotoKey)
  {
    PayloadByColumn(f);
    assert PhotoKey !in Columns;
    Payload(f)[PhotoKey := Lookup(f, PhotoKey)]
  }

  /** The row a form should produce: each column holds the input of the
      same name in camelCase, the photo column the photo path. */
  function FormProfile(f: Form): Profile {
    Profile(
      ToCell(Lookup(f, "fullName")), ToCell(Lookup(f, "rollNumber")),
      ToCell(Lookup(f, "email")), ToCell(Lookup(f, "gender")), ToCell(Lookup(f, "dob")),
      ToCell(Lookup(f, "city")), ToCell(Lookup(f, "interest")),
      ToCell(Lookup(f, "department")), ToCell(Lookup(f, "degreeTitle")),
      ToCell(Lookup(f, "subject")), ToCell(Lookup(f, "startDate")),
      ToCell(Lookup(f, "endDate")), ToCell(Lookup(f, PhotoKey)))
  }

  /** The body's snake_case keys are the ones the handler reads: every
      column of the stored row is the input of the same name. */
  lemma SubmitStoresForm(f: Form)
    ensures ProfileOf(Submit(f)) == FormProfile(f)
  {
    var r := Submit(f);
    assert Prop(r, Columns[0]) == Lookup(f, Keys[0]);
    assert Prop(r, Columns[1]) == Lookup(f, Keys[1]);
    assert Prop(r, Columns[2]) == Lookup(f, Keys[2]);
    assert Prop(r, Columns[3]) == Lookup(f, Keys[3]);
    assert Prop(r, Columns[4]) == Lookup(f, Keys[4]);
    assert Prop(r, Columns[5]) == Lookup(f, Keys[5]);
    assert Prop(r, Columns[6]) == Lookup(f, Keys[6]);
    assert Prop(r, Columns[7]) == Lookup(f, Keys[7]);
    assert Prop(r, Columns[8]) == Lookup(f, Keys[8]);
    assert Prop(r, Columns[9]) == Lookup(f, Keys[9]);
    assert Prop(r, Columns[10]) == Lookup(f, Keys[10]);
    assert Prop(r, Columns[11]) == Lookup(f, Keys[11]);
  }

  /** A form with every entry filled sends only text: no column becomes
      NULL. */
  lemma CompleteFormHasNoNulls(f: Form)
    requires Complete(f) && PhotoKey in f
    ensures NoNulls(FormProfile(f))
  {
    assert Keys[0] in f && Keys[1] in f && Keys[2] in f && Keys[3] in f;
    assert Keys[4] in f && Keys[5] in f && Keys[6] in f && Keys[7] in f;
    assert Keys[8] in f && Keys[9] in f && Keys[10] in f && Keys[11] in f;
  }

  /** Submitting the form and reading the student back returns the form's
      values, when the id exists; when it does not the PUT still reports
      success and nothing is stored. */
  lemma SubmitThenGet(store: Store, id: int, f: Form)
    ensures Update(store, id, Submit(f), true).response == Updated
    ensures Get(Update(store, id, Submit(f), true).store, id, true)
      == if HasId(store.rows, id) then Response(200, Row(Student(id, FormProfile(f)))) else NotFound
  {
    UpdateThenGet(store, id, Submit(f), id);
    SubmitStoresForm(f);
  }

  /** A column as the form shows it: NULL and text alike through `|| ''`. */
  function CellText(c: Cell): string {
    match c
    case SqlNull => ""
    case Text(s) => s
  }

  predicate NoNulls(p: Profile) {
    && p.fullName.Text? && p.rollNumber.Text? && p.email.Text? && p.gender.Text?
    && p.dob.Text? && p.city.Text? && p.interest.Text? && p.department.Text?
    && p.degreeTitle.Text? && p.subject.Text? && p.startDate.Text? && p.endDate.Text?
    && p.photo.Text?
  }

  /** The form a stored row's JSON loads into: each input its column's text
      (NULL as empty), the dates cut to ten characters. */
  function RowForm(p: Profile): Form {
    map[
      "fullName" := CellText(p.fullName),
      "rollNumber" := CellText(p.rollNumber),
      "email" := CellText(p.email),
      "gender" := CellText(p.gender),
      "dob" := SliceTo(CellText(p.dob), DateLength),
      "city" := CellText(p.city),
      "interest" := CellText(p.interest),
      "department" := CellText(p.department),
      "degreeTitle" := CellText(p.degreeTitle),
      "subject" := CellText(p.subject),
      "startDate" := SliceTo(CellText(p.startDate), DateLength),
      "endDate" := SliceTo(CellText(p.endDate), DateLength),
      PhotoKey := CellText(p.photo)]
  }

  /** Loading the JSON the server sends for a row: the row's JSON has no
      camelCase keys, so each input falls back to (or directly finds) its
      column. */
  lemma LoadRow(s: Student)
    ensures Load(RowJson(s)) == RowForm(s.profile)
  {
    RowJsonKeysNameToGender(s);
    RowJsonKeysDobToDepartment(s);
    RowJsonKeysDegreeToPhoto(s);
  }

  /* The column facts below are split into groups only to keep each proof
     small; the grouping has no meaning of its own. */

  lemma RowJsonKeysNameToGender(s: Student)
    ensures Either(RowJson(s), "fullName", "full_name") == CellText(s.profile.fullName)
    ensures Either(RowJson(s), "rollNumber", "roll_number") == CellText(s.profile.rollNumber)
    ensures OrEmpty(Prop(RowJson(s), "email")) == CellText(s.profile.email)
    ensures OrEmpty(Prop(RowJson(s), "gender")) == CellText(s.profile.gender)
  {
    assert Prop(RowJson(s), "fullName") == Undefined;
    assert Prop(RowJson(s), "rollNumber") == Undefined;
  }

  lemma RowJsonKeysDobToDepartment(s: Student)
    ensures Either(RowJson(s), "dob", "date_of_birth") == CellText(s.profile.dob)
    ensures OrEmpty(Prop(RowJson(s), "city")) == CellText(s.profile.city)
    ensures OrEmpty(Prop(RowJson(s), "interest")) == CellText(s.profile.interest)
    ensures OrEmpty(Prop(RowJson(s), "department")) == CellText(s.profile.department)
  {
    assert Prop(RowJson(s), "date_of_birth") == Undefined;
  }

  lemma RowJsonKeysDegreeToPhoto(s: Student)
    ensures Either(RowJson(s), "degreeTitle", "degree_title") == CellText(s.profile.degreeTitle)
    ensures OrEmpty(Prop(RowJson(s), "subject")) == CellText(s.profile.subject)
    ensures Either(RowJson(s), "startDate", "start_date") == CellText(s.profile.startDate)
    ensures Either(RowJson(s), "endDate", "end_date") == CellText(s.profile.endDate)
    ensures OrEmpty(Prop(RowJson(s), PhotoKey)) == CellText(s.profile.photo)
  {
    assert Prop(RowJson(s), "degreeTitle") == Undefined;
    assert Prop(RowJson(s), "startDate") == Undefined;
    assert Prop(RowJson(s), "endDate") == Undefined;
  }

  /** Opening the edit page and pressing Update without touching anything
      rewrites every column of the row with its own text, NULL becoming
      empty text, and the three dates cut to ten characters. */
  lemma UnchangedEdit(s: Student)
    ensures var q := ProfileOf(Submit(Load(RowJson(s))));
      var p := s.profile;
      && q.fullName == Text(CellText(p.fullName))
      && q.rollNumber == Text(CellText(p.rollNumber))
      && q.email == Text(CellText(p.email))
      && q.gender == Text(CellText(p.gender))
      && q.dob == Text(SliceTo(CellText(p.dob), DateLength))
      && q.city == Text(CellText(p.city))
      && q.interest == Text(CellText(p.interest))
      && q.department == Text(CellText(p.department))
      && q.degreeTitle == Text(CellText(p.degreeTitle))
      && q.subject == Text(CellText(p.subject))
      && q.startDate == Text(SliceTo(CellText(p.startDate), DateLength))
      && q.endDate == Text(SliceTo(CellText(p.endDate), DateLength))
      && q.photo == Text(CellText(p.photo))
  {
    LoadRow(s);
    SubmitStoresForm(RowForm(s.profile));
    RowFormLookupsNameToCity(s.profile);
    RowFormLookupsInterestToPhoto(s.profile);
  }

  /* The column facts below are split into groups only to keep each proof
     small; the grouping has no meaning of its own. */

  lemma RowFormLookupsNameToCity(p: Profile)
    ensures Lookup(RowForm(p), "fullName") == Str(CellText(p.fullName))
    ensures Lookup(RowForm(p), "rollNumber") == Str(CellText(p.rollNumber))
    ensures Lookup(RowForm(p), "email") == Str(CellText(p.email))
    ensures Lookup(RowForm(p), "gender") == Str(CellText(p.gender))
    ensures Lookup(RowForm(p), "dob") == Str(SliceTo(CellText(p.dob), DateLength))
    ensures Lookup(RowForm(p), "city") == Str(CellText(p.city))
  {
  }

  lemma RowFormLookupsInterestToPhoto(p: Profile)
    ensures Lookup(RowForm(p), "interest") == Str(CellText(p.interest))
    ensures Lookup(RowForm(p), "department") == Str(CellText(p.department))
    ensures Lookup(RowForm(p), "degreeTitle") == Str(CellText(p.degreeTitle))
    ensures Lookup(RowForm(p), "subject") == Str(CellText(p.subject))
    ensures Lookup(RowForm(p), "startDate") == Str(SliceTo(CellText(p.startDate), DateLength))
    ensures Lookup(RowForm(p), "endDate") == Str(SliceTo(CellText(p.endDate), DateLength))
    ensures Lookup(RowForm(p), PhotoKey) == Str(CellText(p.photo))
  {
  }

  /** A stored row without NULLs and with dates of at most ten characters
      survives being loaded and submitted unchanged. Dates are modelled as
      the text that was stored; with the driver's default conversion a DATE
      column reaches the JSON as a 24-character UTC timestamp, so for real
      rows the date requires fail, and `slice(0, 10)` can give the day
      before on a server east of UTC. This lemma covers the other ten
      columns and dates that were sent as text. */
  lemma UnchangedEditKeepsRow(s: Student)
    requires NoNulls(s.profile)
    requires |CellText(s.profile.dob)| <= DateLength
    requires |CellText(s.profile.startDate)| <= DateLength
    requires |CellText(s.profile.endDate)| <= DateLength
    ensures ProfileOf(Submit(Load(RowJson(s)))) == s.profile
  {
    var p := s.profile;
    LoadRow(s);
    SubmitStoresForm(RowForm(p));
    RowFormIsText(p);
  }

  /** With no NULLs and short dates, the loaded form reproduces the row. */
  lemma RowFormIsText(p: Profile)
    requires NoNulls(p)
    requires |CellText(p.dob)| <= DateLength
    requires |CellText(p.startDate)| <= DateLength
    requires |CellText(p.endDate)| <= DateLength
    ensures FormProfile(RowForm(p)) == p
  {
    RowFormTextNameToCity(p);
    RowFormTextInterestToPhoto(p);
  }

  /* The column facts below are split into groups only to keep each proof
     small; the grouping has no meaning of its own. */

  lemma RowFormTextNameToCity(p: Profile)
    requires NoNulls(p)
    requires |CellText(p.dob)| <= DateLength
    ensures ToCell(Lookup(RowForm(p), "fullName")) == p.fullName
    ensures ToCell(Lookup(RowForm(p), "rollNumber")) == p.rollNumber
    ensures ToCell(Lookup(RowForm(p), "email")) == p.email
    ensures ToCell(Lookup(RowForm(p), "gender")) == p.gender
    ensures ToCell(Lookup(RowForm(p), "dob")) == p.dob
    ensures ToCell(Lookup(RowForm(p), "city")) == p.city
  {
  }

  lemma RowFormTextInterestToPhoto(p: Profile)
    requires NoNulls(p)
    requires |CellText(p.startDate)| <= DateLength
    requires |CellText(p.endDate)| <= DateLength
    ensures ToCell(Lookup(RowForm(p), "interest")) == p.interest
    ensures ToCell(Lookup(RowForm(p), "department")) == p.department
    ensures ToCell(Lookup(RowForm(p), "degreeTitle")) == p.degreeTitle
    ensures ToCell(Lookup(RowForm(p), "subject")) == p.subject
    ensures ToCell(Lookup(RowForm(p), "startDate")) == p.startDate
    ensures ToCell(Lookup(RowForm(p), "endDate")) == p.endDate
    ensures ToCell(Lookup(RowForm(p), PhotoKey)) == p.photo
  {
  }
}

=== FILE: wrappers.dfy ===
/** The optional-value datatype used throughout the model. */
module Wrappers {

  /** A value that may be absent. */
  datatype Option<+T> = None | Some(value: T) {

    /** The carried value, or `default` when there is none. */
    function GetOr(default: T): T {
      match this
      case Some(v) => v
      case None => default
    }
  }
}
